=== FILE: README.md ===
# api_yamdb — a verified model of the review catalog's rules

This project models, in Dafny, the decision logic of a small review catalog API.
Users sign up and get a role. Admins maintain categories, genres and titles.
Any account may review a title once and comment on reviews. Authors, moderators
and admins may edit or delete a review or comment.

The model covers:

- **Validators** (`validators.dfy`, module `Validators`): `validate_username`,
  with the regular expression `^[\w.@+-]+\Z` modelled as a greedy class run
  followed by the end anchor. Also `validate_email` and `validate_max_year`,
  which takes the current year as a parameter.
- **Users and roles** (`users.dfy`, module `Users`): the three `UserRoles`, the
  `YamdbUser` record, the derived `is_admin` / `is_moderator`, and promotion.
- **The store** (`catalog.dfy`, module `Catalog`): users, categories, genres,
  titles, reviews and comments as immutable maps. The invariant `Valid` covers:
  - unique usernames, emails and slugs;
  - at most one review per (title, author) pair;
  - scores in range;
  - every foreign key resolving.
  
  Every insert and update enforces the database's unique and foreign-key
  constraints. The category, genre, title and review writes also apply the
  validators declared on their model fields: name and slug lengths, the year
  bounds and the score bounds. The account and comment writes apply no field
  validator. An account's username, email and name lengths are checked by the
  user and sign-up serializers (`Serializers.UserFieldIssues`,
  `Serializers.SignUpFieldIssues`), and `get_or_create` at sign-up runs none.
- **Cascades** (`cascades.dfy`, module `Cascades`): each `on_delete` behaviour.
  `CASCADE` applies from title to reviews to comments, and from user to reviews
  and comments. `SET_NULL` applies from a category to its titles. Removing a
  genre removes its title links.
- **Permissions** (`permissions.dfy`, module `Permissions`): `IsAdmin`,
  `IsAdminOrReadOnly`, and the collection-level plus object-level checks of
  `IsAuthorOrAdminOrModerator`. Each is a function of (requester, method, author).
- **Serializers** (`serializers.dfy`, module `Serializers`):
  - the sign-up rule;
  - the duplicate-review check on POST;
  - title writes (non-empty genre list, known slugs);
  - the user serializers, with and without a writable role.
- **Views** (`views.dfy`, module `Views`): only the rules that touch the model:
  - `get_or_create` at sign-up;
  - `PATCH users/me`;
  - the refusal of PUT on accounts;
  - the check that a comment's review belongs to the URL's title.

The configuration constants (`reviews.constans`) are not part of this model.
They are one parameter of type `Config.Constants`. The reserved username is that
value's `reserveUsername` field. The route it protects is `users/me`, so its
value is evidently `"me"`. The clock is a parameter too: the current year.

Four behaviours of the code that a reader may not expect:

- Python's `\w` is Unicode-aware, so a username may hold non-ASCII letters and
  digits besides `[A-Za-z0-9_.@+-]`. The Unicode database's
  alphanumeric code points are a parameter, `Constants.unicodeWordChars`.
- On `PATCH users/me` a `role` field is silently ignored (read-only), not refused.
- A title's genre list must be non-empty whenever it is sent, on update as well
  as on create.
- Sign-up with one account's email and another account's username passes the
  serializer. See Findings.

## Model

| member | source | states |
|---|---|---|
| Validators.ClassRun | reviews/validators.py:12 | the greedy `[\w.@+-]+` run: every character before it is in the class and the one after it is not |
| Validators.MatchAt | reviews/validators.py:12 | the anchored pattern matches only at position 0, only for a non-empty all-class string, and ends at the end |
| Validators.FindAllAnchored | reviews/validators.py:25 | `re.findall` of the anchored pattern lists the whole username when it is well formed and nothing otherwise |
| Validators.Forbidden | reviews/validators.py:24-27 | corrected list for the message: every entry is a character outside the class and every such character is listed; a single character lists itself or nothing |
| Validators.ForbiddenConcat | reviews/validators.py:24-27 | the list of a concatenation is the concatenation of the lists, so it holds one entry per offending occurrence, in order |
| Validators.ValidateUsername | reviews/validators.py:11-28 | accepts iff length <= NAME_MAX_LENGTH, not the reserved word, non-empty and all characters in `[\w.@+-]`; returns the input unchanged; the too-long error takes precedence, then the reserved-word error |
| Validators.ValidateUsernameAsWritten | reviews/validators.py:11-28 | the written validator accepts exactly what the corrected one accepts; a too-long name gets the length error, then the reserved name the reserved-word error; it gives the character error exactly when the corrected one does, differing only in the message's list |
| Validators.ForbiddenListAlwaysEmpty | reviews/validators.py:24-27 | as written, the character-class error always lists nothing |
| Validators.ForbiddenListWitness | reviews/validators.py:24-27 | "bad name" is refused listing [] as written and listing [" "] once corrected |
| Validators.ForbiddenListsOffenders | reviews/validators.py:24-27 | corrected: a character is listed iff it occurs in the username and is outside the class |
| Validators.ReservedUsernameRejected | reviews/validators.py:19-22 | the reserved username is always refused |
| Validators.ValidateUsernameIdempotent | reviews/validators.py:28 | validating an accepted username again gives the same result |
| Validators.ValidateEmail | reviews/validators.py:31-36 | accepts iff length <= EMAIL_MAX_LENGTH, returns the input unchanged, otherwise the length error |
| Validators.ValidateEmailIdempotent | reviews/validators.py:36 | validating an accepted email again gives the same result |
| Validators.ValidateMaxYear | reviews/validators.py:39-42 | fails iff the year exceeds the current year; the current year itself passes |
| Validators.ValidateMaxYearMonotone | reviews/validators.py:39-42 | an accepted year stays accepted as the clock advances, and earlier years are accepted too |
| Users.RoleFromValue | reviews/models.py:12-16 | a stored string names a role iff it is one of the three choice values |
| Users.RoleValueRoundTrip | reviews/models.py:12-16 | role -> stored value -> role is the identity, and the stored values are distinct |
| Users.NewUser | reviews/models.py:40-43 | a new account gets the default role `user` and is neither admin nor moderator |
| Users.RoleDerivation | reviews/models.py:53-62 | is_admin iff superuser or staff or role "admin"; is_moderator iff role "moderator" or superuser |
| Users.ElevationFacts | reviews/models.py:53-62 | a superuser is both; staff alone is admin but not moderator; the admin role alone is not moderator |
| Users.RoleChangePromotes | reviews/models.py:53-62 | granting the admin role (or the moderator role to a non-admin) keeps every privilege, though admin drops is_moderator |
| Users.MaxOf | reviews/models.py:19 | `max`: bounds every element and is one of them |
| Users.RoleValuesOverflowAsWritten | reviews/models.py:19 | as written the role column is 2 characters wide and every role value is longer |
| Users.RoleValuesFit | reviews/models.py:19 | corrected: every role value fits the column, and the column is as wide as the longest value |
| Catalog.EmptyStoreValid | reviews/models.py:98-176 | the empty store satisfies every invariant |
| Catalog.UsernameIdentifies | reviews/models.py:24-35 | under the unique indexes, a username or an email identifies one account |
| Catalog.LengthIssues | reviews/models.py:66-68 | a `max_length` reports an issue iff the value is longer than the limit |
| Catalog.ScoreIssues | reviews/models.py:152-155 | no issue iff MIN_SCORE <= score <= MAX_SCORE |
| Catalog.YearIssues | reviews/models.py:100-107 | no issue iff MIN_YEAR_PUB <= year <= current year |
| Catalog.TitleIssues | reviews/models.py:98-107 | no issue iff the name fits and the year is in range |
| Catalog.AddUser | reviews/models.py:22-35 | inserted iff username and email are both unused; a clash is a conflict; exactly the new row under a fresh id is added, every other account and table is unchanged, and the invariant is kept |
| Catalog.UpdateUser | reviews/models.py:24-35 | an account is replaced iff it exists and no other account holds its new username or email; every other account and table is unchanged |
| Catalog.AddNameSlug | reviews/models.py:65-72 | inserted iff name and slug fit and the slug is unused; existing rows unchanged |
| Catalog.AddCategory | reviews/models.py:84-88 | under the slug rules, exactly the given row is stored under its slug and nothing else changes; the invariant is kept |
| Catalog.AddGenre | reviews/models.py:91-95 | under the slug rules, exactly the given row is stored under its slug and nothing else changes; the invariant is kept |
| Catalog.AddTitle | reviews/models.py:98-118 | inserted iff the fields are valid and category and genres exist; only that title is added, other tables are unchanged, and the invariant is kept |
| Catalog.UpdateTitle | reviews/models.py:98-118 | an existing title is replaced under the same checks; other tables are unchanged and the invariant is kept |
| Catalog.AddReview | reviews/models.py:147-165 | inserted iff title and author exist, the score is in range and the author has not reviewed the title; a second review is a unique-constraint conflict; only that review is added and every other table is unchanged |
| Catalog.UpdateReview | reviews/models.py:147-155 | refused unless the review exists and the new score is in range; the review gets the new text and score, keeps its title and author, and other reviews and every other table stay as they were |
| Catalog.UpdateReviewPreservesValid | reviews/models.py:152-165 | editing a review keeps score bounds, the one-review rule and every reference |
| Catalog.AddComment | reviews/models.py:168-172 | inserted iff its review and author exist; only that comment is added and every other table is unchanged |
| Catalog.UpdateComment | reviews/models.py:168-172 | refused unless the comment exists; the comment gets the new text and keeps its review and author, and other comments and every other table stay as they were |
| Catalog.UpdateCommentPreservesValid | reviews/models.py:168-172 | editing a comment keeps every invariant |
| Cascades.DeleteComment | reviews/models.py:168-172 | removes exactly that comment; every other table is unchanged |
| Cascades.DeleteReview | reviews/models.py:169-171 | removes the review and exactly the comments on it; titles, users, categories and genres are unchanged |
| Cascades.DeleteReviewKeepsValid | reviews/models.py:169-171 | the review delete keeps the database constraints and the score bounds |
| Cascades.DeleteTitle | reviews/models.py:148-150 | removes the title, exactly its reviews and exactly the comments on those reviews; users, categories and genres are untouched |
| Cascades.DeleteTitleKeepsValid | reviews/models.py:148-150 | the title delete keeps the database constraints and the score bounds |
| Cascades.TitleDeleteCascades | reviews/models.py:148-150 | after a title delete no review of it and no comment on such a review remains |
| Cascades.DeleteUser | reviews/models.py:131-132 | removes the account, their reviews, every comment on those reviews and their own comments |
| Cascades.DeleteUserKeepsValid | reviews/models.py:131-132 | the user delete keeps the database constraints and the score bounds |
| Cascades.ClearCategory | reviews/models.py:109-113 | a title loses its category iff it was the deleted one; nothing else about it changes |
| Cascades.DeleteCategory | reviews/models.py:109-113 | every title stays, none keeps the deleted category, and no other table changes |
| Cascades.DeleteCategoryKeepsConsistent | reviews/models.py:109-113 | after a category delete the unique and foreign-key constraints still hold |
| Cascades.DeleteGenre | reviews/models.py:115-118 | the genre row goes; every title stays with the same name, year, description and category and loses only the deleted genre; reviews, comments, users and categories are unchanged |
| Cascades.OtherDeletesKeepValid | reviews/models.py:109-118 | deleting a comment, a category or a genre keeps the whole invariant |
| Cascades.GenreDeleteCanEmptyTitle | reviews/models.py:115-118 | deleting a genre can leave a title with no genre |
| Permissions.AdminOnlyIff | api/permissions.py:8-10 | `IsAdmin` allows iff the requester is authenticated and is_admin |
| Permissions.AdminOrReadOnlyIff | api/permissions.py:15-17 | every safe method is allowed, also anonymously; an unsafe one only for an authenticated admin |
| Permissions.AnonymousCannotWrite | api/permissions.py:20 | the inherited collection check refuses unsafe methods to anonymous requesters |
| Permissions.AuthorOrStaffIff | api/permissions.py:22-26 | the object check allows safe methods; an unsafe one iff author, moderator or admin |
| Permissions.PlainNonAuthorDenied | api/permissions.py:22-26 | a plain account that is not the author cannot change or delete the object |
| Permissions.ReviewCommentAccessRule | api/permissions.py:20-26 | the two phases together: reads open; writes need an account and, on an object, authorship or moderation rights |
| Permissions.PromotionKeepsAccess | api/permissions.py:8-26 | monotonicity: a promotion never turns an allowed decision into a denial |
| Permissions.RoleGrantKeepsAccess | api/permissions.py:8-26 | granting the admin or moderator role keeps every allowed decision |
| Serializers.IssuesOf | api/serializers.py:93-97 | a field issue is reported iff its validator failed, carrying that validator's error |
| Serializers.UsernameIssues | api/serializers.py:93-94 | the written username validator reports an issue iff the name is too long, reserved, or not well formed (that is, iff `ValidateUsername` refuses it), and its character error lists nothing |
| Serializers.SignUpFieldIssues | api/serializers.py:93-97 | sign-up fields pass iff the username and email validators pass; the character error, as written, lists nothing |
| Serializers.SignUpRule | api/serializers.py:109-120 | passes iff "email exists" equals "username exists"; an email-only clash and a username-only clash raise their own errors |
| Serializers.SignUpValidateAsWritten | api/serializers.py:105-120 | accepts iff fields are valid and email and username either both exist or both do not; returns the data unchanged |
| Serializers.SignUpAcceptsMixedPair | api/serializers.py:113-115 | as written, one account's username with another's email is accepted |
| Serializers.SignUpValidate | api/serializers.py:109-120 | corrected: accepts iff fields are valid and either one account owns both values or neither value is in use |
| Serializers.SignUpValidateRefines | api/serializers.py:109-120 | the corrected check only accepts what the written one accepts |
| Serializers.SignUpRefusesReservedName | api/serializers.py:93-94 | sign-up with the reserved username fails field validation whatever the email, with the reserved-word issue on `username` (the length issue if the reserved word were too long), under both checks |
| Serializers.ReviewFieldIssues | reviews/models.py:152-155 | a create needs text and score; a given score must be in range |
| Serializers.ReviewValidate | api/serializers.py:70-81 | refused iff the method is POST and the author already reviewed the URL's title; otherwise the data is returned unchanged |
| Serializers.ReviewSerializer | api/serializers.py:64-81 | field checks (partial on PATCH) then `validate`; accepted data is returned unchanged |
| Serializers.AcceptedReviewStores | api/serializers.py:74-81 | an accepted POST is stored without a constraint violation and keeps the invariant |
| Serializers.SecondReviewRefused | api/serializers.py:74-80 | after one accepted review, a second POST by the same author on the same title is refused |
| Serializers.GenreIssues | api/serializers.py:43-48 | the genre list passes iff it is non-empty and every slug names a genre |
| Serializers.UnknownGenre | api/serializers.py:43-46 | no issue iff every slug names a genre; otherwise exactly one issue, naming the first unknown slug |
| Serializers.TitleFieldIssues | api/serializers.py:38-52 | a title write passes iff required fields are present (unless partial) and every given field is valid |
| Serializers.SlugSet | api/serializers.py:43-48 | the genres of a written title are exactly the slugs sent |
| Serializers.ApplyTitle | api/serializers.py:38-52 | each of name, year, description, genres and category is replaced when sent and kept when absent |
| Serializers.CreatedTitleStores | api/serializers.py:38-52 | a validated create yields a title with a category and at least one genre that stores cleanly |
| Serializers.EmptyGenreListRefused | api/serializers.py:43-48 | an empty genre list is refused on create and update |
| Serializers.UserFieldIssues | api/serializers.py:123-133 | a user write passes iff, on a create, username and email are both sent; each sent username and email passes its validator and is not used by another account; names fit; with a writable role, the role is a choice |
| Serializers.ApplyUserData | api/serializers.py:136-140 | each of username, email, first name, last name and bio is replaced when sent and kept when absent; without a writable role the role never changes; elevation flags and the confirmation code never change |
| Serializers.SelfUpdateKeepsPrivileges | api/serializers.py:136-140 | the self-profile serializer keeps role, is_admin and is_moderator |
| Serializers.CreatedUserStores | api/serializers.py:123-133 | a create that passes the full checks carries a username and email, is inserted without a unique-index clash, and keeps the store valid |
| Serializers.ValidatedUserStores | api/serializers.py:123-133 | a validated user update is stored without a unique-index violation |
| Views.UserUpdateMethod | api/views.py:180-184 | an account update is refused with MethodNotAllowed iff it is a PUT |
| Views.CommentReview | api/views.py:98-103 | a comment's review is found iff it exists and belongs to the URL's title |
| Views.GetOrCreateUser | api/views.py:120-121 | reuses the account owning both values, changing nothing; else inserts a default account with that pair under a fresh id, changing nothing else; fails with a conflict iff either value belongs to someone else |
| Views.SignUp | api/views.py:114-121 | corrected sign-up: succeeds iff the check accepts, never hits a constraint, leaves an account with that pair, keeps every existing account present and as it was, adds at most the new default-role account with no privileges, leaves every other table unchanged, and keeps the invariant |
| Views.SignUpAsWritten | api/views.py:114-121 | as written: succeeds exactly when the corrected check accepts; every other request the written check accepts ends in a unique-index conflict |
| Views.SignUpAsWrittenConflicts | api/views.py:120-121 | as written a mixed pair passes validation and then hits a unique index, while the corrected view refuses it |
| Views.SignUpRepeatable | api/views.py:114-121 | repeating a successful sign-up changes nothing |
| Views.PatchMe | api/views.py:155-166 | anonymous requests are refused; a successful self-update stores the sent fields on the requester's record, never changes their role or privileges, adds or removes no account, changes no other account or table, and keeps the invariant |
| Views.PatchMeSucceedsWhenValid | api/views.py:155-166 | a validated self-update always lands |

## Left out

- Mail delivery, confirmation-code generation and checking, and the token exchange (`token_jwt`, `GetTokenSerializer`, `AccessToken`). They are calls into framework code with no logic of their own here, so `User.confirmationCode` is carried but never set.
- The title rating (`Avg` of review scores). It is a floating-point aggregate that the framework truncates to an integer.
- Publication timestamps, ordering, `__str__` and verbose names. `Title.__str__` reads a `text` field that titles do not have, and that is not modelled either.
- Routing (`api/urls.py`), the admin registration (`reviews/admin.py`), filtering, search and pagination.
- The format validators built into `SlugField` and `EmailField`. Also the whitespace trimming and blank-string refusal of the framework's `CharField`.
- The 16-bit ranges of `SmallIntegerField` and `PositiveSmallIntegerField`. The configured year and score bounds are assumed to lie inside them.
- Concurrency: two requests racing past a uniqueness check.
- Store operations combine the model field validators with the database constraints. The source runs those validators through the serializers, so a bare `save()` that skips them is not modelled.
- Role values outside the three choices cannot appear in a stored account, because the role is an enumeration here.
- Admin management of other accounts (`UsersViewSet`) has no view function. Its serializer is `UserFieldIssues` with a writable role: not partial on a create (`Serializers.CreatedUserStores`), partial on an update (`Serializers.ValidatedUserStores`). Its permission is `Permissions.AdminOnlyIff`.
- `GET users/me` has no function: it only reads the requester's record.
- Permissions.AuthorOrStaff: requires that the collection-level check passed. For an anonymous requester with an unsafe method the source would raise an `AttributeError` rather than answer, and the framework never makes that call.
- Serializers.UserFieldIssues: for a username or email that is both invalid and taken, it reports the validator's error only, while the framework runs the uniqueness check alongside the field validators and may report both. Which errors are listed is not promised by any contract.
- Views.SignUp: uses the corrected sign-up check (see Findings). `Views.SignUpAsWritten` keeps the written behaviour.

## Findings

| source | as written | input that shows it | evidently intended | confidence | as-written member | corrected member |
|---|---|---|---|---|---|---|
| reviews/models.py:19 | `max(len(role) for role in UserRoles.choices)` measures the (value, label) pairs, so the role column is 2 characters wide | any role value, e.g. "user" (4 characters) or "moderator" (9) | the length of the longest role value, 9 | high, not executed | Users.RoleValuesOverflowAsWritten | Users.RoleValuesFit |
| reviews/validators.py:24-27 | the error lists `re.findall` of the same anchored pattern, which is empty whenever the match failed | username "bad name": the message lists [] | list the characters outside `[\w.@+-]`, here [" "] | high, not executed | Validators.ForbiddenListAlwaysEmpty | Validators.ForbiddenListsOffenders |
| api/serializers.py:113-115 | accepted when the email and the username both exist, even for two different accounts; `get_or_create` then violates a unique index | accounts ann/ann@x and bob/bob@x; sign-up with ("ann", "bob@x") | refuse unless one account owns both values | medium, not executed | Views.SignUpAsWrittenConflicts | Views.SignUp |

=== FILE: cascades.dfy ===
/**
 Row deletion with the `on_delete` behaviour of `reviews/models.py`: a
 title takes its reviews with it, a review its comments, a user their reviews
 (with every comment on them) and their comments; a category's titles stay and
 lose their category; a genre leaves the titles that carried it.
 */
module Cascades {
  import opened Wrappers
  import opened Catalog

  /** `rid` names a review of title `tid`. */
  predicate ReviewOf(s: Store, rid: Id, tid: Id) {
    rid in s.reviews && s.reviews[rid].title == tid
  }

  /** `rid` names a review written by `uid`. */
  predicate ReviewBy(s: Store, rid: Id, uid: Id) {
    rid in s.reviews && s.reviews[rid].post.author == uid
  }

  /** Deleting a comment touches nothing else. */
  function DeleteComment(s: Store, cid: Id): (s': Store)
    ensures cid !in s'.comments
    ensures forall c :: c in s'.comments <==> c in s.comments && c != cid
    ensures forall c :: c in s'.comments ==> s'.comments[c] == s.comments[c]
    ensures s'.reviews == s.reviews && s'.titles == s.titles && s'.users == s.users
    ensures s'.categories == s.categories && s'.genres == s.genres
    ensures Consistent(s) ==> Consistent(s')
  {
    s.(comments := s.comments - {cid})
  }

  /** Deleting a review deletes its comments (`Comment.review` cascades). */
  function DeleteReview(s: Store, rid: Id): (s': Store)
    ensures rid !in s'.reviews
    ensures forall r :: r in s'.reviews <==> r in s.reviews && r != rid
    ensures forall c :: c in s'.comments <==> c in s.comments && s.comments[c].review != rid
    ensures forall c :: c in s'.comments ==> s'.comments[c] == s.comments[c]
    ensures forall r :: r in s'.reviews ==> s'.reviews[r] == s.reviews[r]
    ensures s'.titles == s.titles && s'.users == s.users
    ensures s'.categories == s.categories && s'.genres == s.genres
  {
    s.(reviews := s.reviews - {rid},
       comments := map c | c in s.comments && s.comments[c].review != rid :: s.comments[c])
  }

  /** Deleting a title deletes its reviews (`Review.title` cascades) and, through
      them, every comment on those reviews. */
  function DeleteTitle(s: Store, tid: Id): (s': Store)
    ensures tid !in s'.titles
    ensures forall t :: t in s'.titles <==> t in s.titles && t != tid
    ensures forall r :: r in s'.reviews <==> r in s.reviews && s.reviews[r].title != tid
    ensures forall c :: c in s'.comments <==> c in s.comments && !ReviewOf(s, s.comments[c].review, tid)
    ensures forall t :: t in s'.titles ==> s'.titles[t] == s.titles[t]
    ensures forall r :: r in s'.reviews ==> s'.reviews[r] == s.reviews[r]
    ensures forall c :: c in s'.comments ==> s'.comments[c] == s.comments[c]
    ensures s'.users == s.users && s'.categories == s.categories && s'.genres == s.genres
  {
    s.(titles := s.titles - {tid},
       reviews := map r | r in s.reviews && s.reviews[r].title != tid :: s.reviews[r],
       comments := map c | c in s.comments && !ReviewOf(s, s.comments[c].review, tid) :: s.comments[c])
  }

  /** Deleting a user deletes their reviews, every comment on those reviews
      (whoever wrote it), and their own comments everywhere. */
  function DeleteUser(s: Store, uid: Id): (s': Store)
    ensures uid !in s'.users
    ensures forall u :: u in s'.users <==> u in s.users && u != uid
    ensures forall r :: r in s'.reviews <==> r in s.reviews && s.reviews[r].post.author != uid
    ensures forall c :: c in s'.comments <==>
              c in s.comments && s.comments[c].post.author != uid && !ReviewBy(s, s.comments[c].review, uid)
    ensures forall u :: u in s'.users ==> s'.users[u] == s.users[u]
    ensures forall r :: r in s'.reviews ==> s'.reviews[r] == s.reviews[r]
    ensures forall c :: c in s'.comments ==> s'.comments[c] == s.comments[c]
    ensures s'.titles == s.titles && s'.categories == s.categories && s'.genres == s.genres
  {
    s.(users := s.users - {uid},
       reviews := map r | r in s.reviews && s.reviews[r].post.author != uid :: s.reviews[r],
       comments := map c | c in s.comments && s.comments[c].post.author != uid
                                            && !ReviewBy(s, s.comments[c].review, uid) :: s.comments[c])
  }

  /** The title with its category cleared if it was `slug` (`SET_NULL`). */
  function ClearCategory(t: Title, slug: Slug): (t': Title)
    ensures t'.category == (if t.category == Some(slug) then None else t.category)
    ensures t'.name == t.name && t'.year == t.year && t'.description == t.description
    ensures t'.genres == t.genres
  {
    if t.category == Some(slug) then t.(category := None) else t
  }

  /** Deleting a category keeps every title, clearing the category of those
      that had it; nothing else changes. */
  function DeleteCategory(s: Store, slug: Slug): (s': Store)
    ensures slug !in s'.categories
    ensures forall sl :: sl in s'.categories <==> sl in s.categories && sl != slug
    ensures s'.titles.Keys == s.titles.Keys
    ensures forall t :: t in s'.titles ==> s'.titles[t] == ClearCategory(s.titles[t], slug)
    ensures forall t :: t in s'.titles ==> s'.titles[t].category != Some(slug)
    ensures s'.reviews == s.reviews && s'.comments == s.comments && s'.users == s.users
    ensures s'.genres == s.genres
  {
    s.(categories := s.categories - {slug},
       titles := map t | t in s.titles :: ClearCategory(s.titles[t], slug))
  }

  /** Deleting a genre removes the genre-title links; the titles stay. */
  function DeleteGenre(s: Store, slug: Slug): (s': Store)
    ensures slug !in s'.genres
    ensures forall sl :: sl in s'.genres <==> sl in s.genres && sl != slug
    ensures s'.titles.Keys == s.titles.Keys
    ensures forall t :: t in s'.titles ==> s'.titles[t].genres == s.titles[t].genres - {slug}
    ensures forall t :: t in s'.titles ==> s'.titles[t].category == s.titles[t].category
    ensures forall t :: t in s'.titles ==>
              && s'.titles[t].name == s.titles[t].name
              && s'.titles[t].year == s.titles[t].year
              && s'.titles[t].description == s.titles[t].description
    ensures s'.reviews == s.reviews && s'.comments == s.comments && s'.users == s.users
    ensures s'.categories == s.categories
    ensures Consistent(s) ==> Consistent(s')
  {
    s.(genres := s.genres - {slug},
       titles := map t | t in s.titles :: s.titles[t].(genres := s.titles[t].genres - {slug}))
  }

  /** The review delete keeps the database constraints and the score bounds. */
  lemma DeleteReviewKeepsValid(s: Store, rid: Id, k: Config.Constants)
    requires Consistent(s)
    ensures Consistent(DeleteReview(s, rid))
    ensures Valid(s, k) ==> Valid(DeleteReview(s, rid), k)
  {
  }

  /** The title delete keeps the database constraints and the score bounds. */
  lemma DeleteTitleKeepsValid(s: Store, tid: Id, k: Config.Constants)
    requires Consistent(s)
    ensures Consistent(DeleteTitle(s, tid))
    ensures Valid(s, k) ==> Valid(DeleteTitle(s, tid), k)
  {
  }

  /** The user delete keeps the database constraints and the score bounds. */
  lemma DeleteUserKeepsValid(s: Store, uid: Id, k: Config.Constants)
    requires Consistent(s)
    ensures Consistent(DeleteUser(s, uid))
    ensures Valid(s, k) ==> Valid(DeleteUser(s, uid), k)
  {
  }

  /** The category delete keeps the database constraints: no title is left
      pointing at the removed category. */
  lemma DeleteCategoryKeepsConsistent(s: Store, slug: Slug)
    requires Consistent(s)
    ensures Consistent(DeleteCategory(s, slug))
  {
  }

  /** The deletes that leave the reviews alone keep the whole invariant. */
  lemma OtherDeletesKeepValid(s: Store, k: Config.Constants, id: Id, slug: Slug)
    requires Valid(s, k)
    ensures Valid(DeleteComment(s, id), k)
    ensures Valid(DeleteCategory(s, slug), k) && Valid(DeleteGenre(s, slug), k)
  {
  }

  /** The transitive cascade: after a title is deleted, no review of it and
      no comment on such a review remains, and every surviving comment still
      hangs on a surviving review. */
  lemma TitleDeleteCascades(s: Store, tid: Id)
    requires Consistent(s)
    ensures forall r :: r in DeleteTitle(s, tid).reviews ==> DeleteTitle(s, tid).reviews[r].title != tid
    ensures forall c :: c in s.comments && s.reviews[s.comments[c].review].title == tid
              ==> c !in DeleteTitle(s, tid).comments
    ensures forall c :: c in DeleteTitle(s, tid).comments
              ==> DeleteTitle(s, tid).comments[c].review in DeleteTitle(s, tid).reviews
  {
  }

  /** A genre delete can leave a title with no genre at all: the non-empty
      genre list is only demanded when a title is written. */
  lemma GenreDeleteCanEmptyTitle()
    ensures var s := EmptyStore.(genres := map["drama" := NameSlug("Drama", "drama")],
                                 titles := map[0 := Title("T", 2000, "", None, {"drama"})],
                                 nextId := 1);
            && Consistent(s)
            && s.titles[0].genres != {}
            && DeleteGenre(s, "drama").titles[0].genres == {}
  {
    var s := EmptyStore.(genres := map["drama" := NameSlug("Drama", "drama")],
                         titles := map[0 := Title("T", 2000, "", None, {"drama"})],
                         nextId := 1);
    assert DeleteGenre(s, "drama").titles[0].genres == {"drama"} - {"drama"};
  }
}

=== FILE: catalog.dfy ===
/**
 The catalog store of `reviews/models.py`: categories, genres, titles,
 reviews, comments and users, the invariants the database and the model
 field validators keep (unique usernames, emails, slugs and (title, author)
 pairs, scores in range, every reference resolving), and the operations
 that add or change rows. The cascades on delete live in module Cascades.

 Categories and genres are keyed by their slug: it is unique, it is how the
 API names them, and no route changes it. Every other row has a numeric id
 drawn from one counter.
 */
module Catalog {
  import opened Wrappers
  import opened Errors
  import opened Config
  import opened Users
  import Validators

  type Id = nat
  type Slug = string

  /** `NameSlug`, the shape of both `Category` and `Genre`. */
  datatype NameSlug = NameSlug(name: string, slug: Slug)

  /** `Title`: the category may be null; genres are a many-to-many relation. */
  datatype Title = Title(
    name: string,
    year: int,
    description: string,
    category: Option<Slug>,
    genres: set<Slug>
  )

  /** `TextAuthorPubDate`, the authored text shared by reviews and comments. */
  datatype Authored = Authored(text: string, author: Id)

  datatype Review = Review(post: Authored, title: Id, score: int)

  datatype Comment = Comment(post: Authored, review: Id)

  datatype Store = Store(
    users: map<Id, User>,
    categories: map<Slug, NameSlug>,
    genres: map<Slug, NameSlug>,
    titles: map<Id, Title>,
    reviews: map<Id, Review>,
    comments: map<Id, Comment>,
    nextId: Id
  )

  const EmptyStore: Store := Store(map[], map[], map[], map[], map[], map[], 0)

  // ---------------------------------------------------------------- invariants

  predicate UsernameInUse(users: map<Id, User>, name: string) {
    exists id :: id in users && users[id].username == name
  }

  predicate EmailInUse(users: map<Id, User>, email: string) {
    exists id :: id in users && users[id].email == email
  }

  predicate UniqueUsernames(users: map<Id, User>) {
    forall a, b :: a in users && b in users && users[a].username == users[b].username ==> a == b
  }

  predicate UniqueEmails(users: map<Id, User>) {
    forall a, b :: a in users && b in users && users[a].email == users[b].email ==> a == b
  }

  /** The slug column is the key, so two rows never share a slug. */
  predicate SlugKeyed(m: map<Slug, NameSlug>) {
    forall sl :: sl in m ==> m[sl].slug == sl
  }

  /** The `unique_title_author` constraint. */
  predicate OneReviewPerAuthor(reviews: map<Id, Review>) {
    forall a, b ::
      a in reviews && b in reviews
      && reviews[a].title == reviews[b].title
      && reviews[a].post.author == reviews[b].post.author
      ==> a == b
  }

  predicate HasReviewed(reviews: map<Id, Review>, title: Id, author: Id) {
    exists id :: id in reviews && reviews[id].title == title && reviews[id].post.author == author
  }

  predicate ScoreInRange(score: int, k: Constants) {
    k.minScore <= score <= k.maxScore
  }

  predicate ScoresInRange(reviews: map<Id, Review>, k: Constants) {
    forall id :: id in reviews ==> ScoreInRange(reviews[id].score, k)
  }

  predicate TitleRefsResolve(s: Store, t: Title) {
    (t.category.Some? ==> t.category.value in s.categories) && t.genres <= s.genres.Keys
  }

  /** Every foreign key points at an existing row. */
  predicate ReferencesResolve(s: Store) {
    && (forall t :: t in s.titles ==> TitleRefsResolve(s, s.titles[t]))
    && (forall r :: r in s.reviews ==> s.reviews[r].title in s.titles && s.reviews[r].post.author in s.users)
    && (forall c :: c in s.comments ==> s.comments[c].review in s.reviews && s.comments[c].post.author in s.users)
  }

  /** Every numeric id in use was drawn from the counter. */
  predicate IdsIssued(s: Store) {
    && (forall id :: id in s.users ==> id < s.nextId)
    && (forall id :: id in s.titles ==> id < s.nextId)
    && (forall id :: id in s.reviews ==> id < s.nextId)
    && (forall id :: id in s.comments ==> id < s.nextId)
  }

  /** The constraints the database itself keeps. */
  predicate Consistent(s: Store) {
    && UniqueUsernames(s.users)
    && UniqueEmails(s.users)
    && SlugKeyed(s.categories)
    && SlugKeyed(s.genres)
    && OneReviewPerAuthor(s.reviews)
    && ReferencesResolve(s)
    && IdsIssued(s)
  }

  /** The database constraints plus the score bounds of the model field validators. */
  predicate Valid(s: Store, k: Constants) {
    Consistent(s) && ScoresInRange(s.reviews, k)
  }

  lemma EmptyStoreValid(k: Constants)
    ensures Valid(EmptyStore, k)
  {
  }

  /** The unique constraint on usernames makes a name identify one account. */
  lemma UsernameIdentifies(s: Store, a: Id, b: Id)
    requires Consistent(s)
    requires a in s.users && b in s.users
    ensures s.users[a].username == s.users[b].username ==> a == b
    ensures s.users[a].email == s.users[b].email ==> a == b
  {
  }

  // ------------------------------------------------------- field validation

  /** The issue a `max_length` on a character field reports. */
  function LengthIssues(field: string, value: string, limit: nat): (issues: seq<FieldIssue>)
    ensures issues == [] <==> |value| <= limit
    ensures issues != [] ==> issues == [FieldIssue(field, TooLong(limit))]
  {
    if |value| > limit then [FieldIssue(field, TooLong(limit))] else []
  }

  /** The `score` validators, `MinValueValidator(MIN_SCORE)` then
      `MaxValueValidator(MAX_SCORE)`; every failing one is reported. */
  function ScoreIssues(score: int, k: Constants): (issues: seq<FieldIssue>)
    ensures issues == [] <==> ScoreInRange(score, k)
    ensures forall i :: 0 <= i < |issues| ==> issues[i].field == "score"
  {
    (if score < k.minScore then [FieldIssue("score", BelowMinimum(k.minScore))] else [])
    + (if score > k.maxScore then [FieldIssue("score", AboveMaximum(k.maxScore))] else [])
  }

  /** The `year` validators, `MinValueValidator(MIN_YEAR_PUB)` then
      `validate_max_year` against the clock's current year. */
  function YearIssues(year: int, k: Constants, currentYear: int): (issues: seq<FieldIssue>)
    ensures issues == [] <==> k.minYearPub <= year <= currentYear
    ensures forall i :: 0 <= i < |issues| ==> issues[i].field == "year"
  {
    (if year < k.minYearPub then [FieldIssue("year", BelowMinimum(k.minYearPub))] else [])
    + (match Validators.ValidateMaxYear(year, currentYear)
       case Pass => []
       case Fail(e) => [FieldIssue("year", e)])
  }

  /** The field validators of a title row. */
  function TitleIssues(t: Title, k: Constants, currentYear: int): (issues: seq<FieldIssue>)
    ensures issues == [] <==>
              |t.name| <= k.charFieldMaxLength && k.minYearPub <= t.year <= currentYear
  {
    LengthIssues("name", t.name, k.charFieldMaxLength) + YearIssues(t.year, k, currentYear)
  }

  // ----------------------------------------------------------------- inserts

  /** Insert an account; the unique indexes on username and email refuse a clash. */
  function AddUser(s: Store, u: User): (r: Result<(Store, Id), Error>)
    ensures r.Ok? <==> !UsernameInUse(s.users, u.username) && !EmailInUse(s.users, u.email)
    ensures r.Err? ==> r.error.Conflict?
    ensures r.Ok? && IdsIssued(s) ==> r.value.1 !in s.users
    ensures r.Ok? ==> r.value.0.users == s.users[r.value.1 := u]
    ensures r.Ok? ==> r.value.0.titles == s.titles && r.value.0.reviews == s.reviews
                      && r.value.0.comments == s.comments
                      && r.value.0.categories == s.categories && r.value.0.genres == s.genres
    ensures r.Ok? && Consistent(s) ==> Consistent(r.value.0)
  {
    if UsernameInUse(s.users, u.username) then Err(Conflict(UniqueUsername))
    else if EmailInUse(s.users, u.email) then Err(Conflict(UniqueEmail))
    else
      var id := s.nextId;
      Ok((s.(users := s.users[id := u], nextId := id + 1), id))
  }

  /** Replace an account's row; its new username and email must not belong
      to anyone else. */
  function UpdateUser(s: Store, id: Id, u: User): (r: Result<Store, Error>)
    ensures r.Ok? <==>
              && id in s.users
              && (forall o :: o in s.users && o != id ==> s.users[o].username != u.username)
              && (forall o :: o in s.users && o != id ==> s.users[o].email != u.email)
    ensures r.Ok? ==> r.value.users == s.users[id := u] && r.value.reviews == s.reviews
                      && r.value.comments == s.comments && r.value.titles == s.titles
                      && r.value.categories == s.categories && r.value.genres == s.genres
    ensures r.Ok? && Consistent(s) ==> Consistent(r.value)
  {
    if id !in s.users then Err(NotFound)
    else if exists o :: o in s.users && o != id && s.users[o].username == u.username then
      Err(Conflict(UniqueUsername))
    else if exists o :: o in s.users && o != id && s.users[o].email == u.email then
      Err(Conflict(UniqueEmail))
    else Ok(s.(users := s.users[id := u]))
  }

  /** Insert a category or genre row: field lengths first, then the slug index. */
  function AddNameSlug(m: map<Slug, NameSlug>, ns: NameSlug, k: Constants): (r: Result<map<Slug, NameSlug>, Error>)
    ensures r.Ok? <==> |ns.name| <= k.charFieldMaxLength && |ns.slug| <= k.slugFieldMaxLength && ns.slug !in m
    ensures r.Err? && ns.slug in m && r.error.Conflict? ==> r.error.constraint == UniqueSlug
    ensures r.Ok? ==> r.value.Keys == m.Keys + {ns.slug} && r.value[ns.slug] == ns
                      && forall sl :: sl in m ==> r.value[sl] == m[sl]
    ensures r.Ok? && SlugKeyed(m) ==> SlugKeyed(r.value)
  {
    var issues := LengthIssues("name", ns.name, k.charFieldMaxLength)
                  + LengthIssues("slug", ns.slug, k.slugFieldMaxLength);
    if issues != [] then Err(Invalid(issues))
    else if ns.slug in m then Err(Conflict(UniqueSlug))
    else Ok(m[ns.slug := ns])
  }

  function AddCategory(s: Store, ns: NameSlug, k: Constants): (r: Result<Store, Error>)
    ensures r.Ok? <==> AddNameSlug(s.categories, ns, k).Ok?
    ensures r.Ok? ==> ns.slug !in s.categories && r.value == s.(categories := s.categories[ns.slug := ns])
    ensures r.Ok? && Valid(s, k) ==> Valid(r.value, k)
  {
    var m :- AddNameSlug(s.categories, ns, k);
    Ok(s.(categories := m))
  }

  function AddGenre(s: Store, ns: NameSlug, k: Constants): (r: Result<Store, Error>)
    ensures r.Ok? <==> AddNameSlug(s.genres, ns, k).Ok?
    ensures r.Ok? ==> ns.slug !in s.genres && r.value == s.(genres := s.genres[ns.slug := ns])
    ensures r.Ok? && Valid(s, k) ==> Valid(r.value, k)
  {
    var m :- AddNameSlug(s.genres, ns, k);
    Ok(s.(genres := m))
  }

  /** Insert a title: its field validators, then its category and genres must exist. */
  function AddTitle(s: Store, t: Title, k: Constants, currentYear: int): (r: Result<(Store, Id), Error>)
    ensures r.Ok? <==> TitleIssues(t, k, currentYear) == [] && TitleRefsResolve(s, t)
    ensures r.Ok? && IdsIssued(s) ==> r.value.1 !in s.titles
    ensures r.Ok? ==> r.value.0.titles == s.titles[r.value.1 := t]
                      && r.value.0.reviews == s.reviews && r.value.0.users == s.users
                      && r.value.0.comments == s.comments
                      && r.value.0.categories == s.categories && r.value.0.genres == s.genres
    ensures r.Ok? ==> k.minYearPub <= t.year <= currentYear
    ensures r.Ok? && Valid(s, k) ==> Valid(r.value.0, k)
  {
    var issues := TitleIssues(t, k, currentYear);
    if issues != [] then Err(Invalid(issues))
    else if !TitleRefsResolve(s, t) then Err(NotFound)
    else
      var id := s.nextId;
      Ok((s.(titles := s.titles[id := t], nextId := id + 1), id))
  }

  /** Replace an existing title's row under the same checks as an insert. */
  function UpdateTitle(s: Store, id: Id, t: Title, k: Constants, currentYear: int): (r: Result<Store, Error>)
    ensures r.Ok? <==> id in s.titles && TitleIssues(t, k, currentYear) == [] && TitleRefsResolve(s, t)
    ensures r.Ok? ==> r.value.titles == s.titles[id := t] && r.value.reviews == s.reviews
                      && r.value.users == s.users && r.value.comments == s.comments
                      && r.value.categories == s.categories && r.value.genres == s.genres
    ensures r.Ok? && Valid(s, k) ==> Valid(r.value, k)
  {
    if id !in s.titles then Err(NotFound)
    else
      var issues := TitleIssues(t, k, currentYear);
      if issues != [] then Err(Invalid(issues))
      else if !TitleRefsResolve(s, t) then Err(NotFound)
      else Ok(s.(titles := s.titles[id := t]))
  }

  /** Insert a review: title and author must exist, the score must be in
      range, and the author must not have reviewed the title already. */
  function AddReview(s: Store, rv: Review, k: Constants): (r: Result<(Store, Id), Error>)
    ensures r.Ok? <==>
              && rv.title in s.titles && rv.post.author in s.users
              && ScoreInRange(rv.score, k)
              && !HasReviewed(s.reviews, rv.title, rv.post.author)
    ensures (rv.title in s.titles && rv.post.author in s.users && ScoreInRange(rv.score, k)
             && HasReviewed(s.reviews, rv.title, rv.post.author))
            ==> r == Err(Conflict(UniqueTitleAuthor))
    ensures r.Ok? && IdsIssued(s) ==> r.value.1 !in s.reviews
    ensures r.Ok? ==> r.value.0.reviews == s.reviews[r.value.1 := rv]
                      && r.value.0.titles == s.titles && r.value.0.users == s.users
                      && r.value.0.comments == s.comments
                      && r.value.0.categories == s.categories && r.value.0.genres == s.genres
    ensures r.Ok? && Valid(s, k) ==> Valid(r.value.0, k)
  {
    if rv.title !in s.titles || rv.post.author !in s.users then Err(NotFound)
    else
      var issues := ScoreIssues(rv.score, k);
      if issues != [] then Err(Invalid(issues))
      else if HasReviewed(s.reviews, rv.title, rv.post.author) then Err(Conflict(UniqueTitleAuthor))
      else
        var id := s.nextId;
        Ok((s.(reviews := s.reviews[id := rv], nextId := id + 1), id))
  }

  /** Change a review's text and score; its title and author stay as they were. */
  function UpdateReview(s: Store, id: Id, text: string, score: int, k: Constants): (r: Result<Store, Error>)
    ensures r.Ok? <==> id in s.reviews && ScoreInRange(score, k)
    ensures r.Ok? ==> id in r.value.reviews && r.value.reviews.Keys == s.reviews.Keys
                      && r.value.reviews[id].title == s.reviews[id].title
                      && r.value.reviews[id].post.author == s.reviews[id].post.author
                      && r.value.reviews[id].score == score
                      && r.value.reviews[id].post.text == text
    ensures r.Ok? ==> forall o :: o in s.reviews && o != id ==> r.value.reviews[o] == s.reviews[o]
    ensures r.Ok? ==> r.value.users == s.users && r.value.titles == s.titles && r.value.comments == s.comments
                      && r.value.categories == s.categories && r.value.genres == s.genres
  {
    if id !in s.reviews then Err(NotFound)
    else
      var issues := ScoreIssues(score, k);
      if issues != [] then Err(Invalid(issues))
      else
        var rv := s.reviews[id];
        Ok(s.(reviews := s.reviews[id := rv.(post := rv.post.(text := text), score := score)]))
  }

  /** Insert a comment on an existing review by an existing user. */
  function AddComment(s: Store, c: Comment): (r: Result<(Store, Id), Error>)
    ensures r.Ok? <==> c.review in s.reviews && c.post.author in s.users
    ensures r.Ok? && IdsIssued(s) ==> r.value.1 !in s.comments
    ensures r.Ok? ==> r.value.0.comments == s.comments[r.value.1 := c]
                      && r.value.0.reviews == s.reviews && r.value.0.users == s.users
                      && r.value.0.titles == s.titles
                      && r.value.0.categories == s.categories && r.value.0.genres == s.genres
    ensures r.Ok? && Consistent(s) ==> Consistent(r.value.0)
  {
    if c.review !in s.reviews || c.post.author !in s.users then Err(NotFound)
    else
      var id := s.nextId;
      Ok((s.(comments := s.comments[id := c], nextId := id + 1), id))
  }

  /** Change a comment's text; its review and author stay as they were. */
  function UpdateComment(s: Store, id: Id, text: string): (r: Result<Store, Error>)
    ensures r.Ok? <==> id in s.comments
    ensures r.Ok? ==> id in r.value.comments && r.value.comments[id].post.text == text
                      && r.value.comments[id].review == s.comments[id].review
                      && r.value.comments[id].post.author == s.comments[id].post.author
    ensures r.Ok? ==> r.value.comments.Keys == s.comments.Keys
                      && forall o :: o in s.comments && o != id ==> r.value.comments[o] == s.comments[o]
    ensures r.Ok? ==> r.value.reviews == s.reviews && r.value.users == s.users && r.value.titles == s.titles
                      && r.value.categories == s.categories && r.value.genres == s.genres
  {
    if id !in s.comments then Err(NotFound)
    else
      var c := s.comments[id];
      Ok(s.(comments := s.comments[id := c.(post := c.post.(text := text))]))
  }

  /** Editing a review keeps every invariant: its (title, author) pair and
      everything pointing at it are untouched. */
  lemma UpdateReviewPreservesValid(s: Store, id: Id, text: string, score: int, k: Constants)
    requires Valid(s, k)
    requires UpdateReview(s, id, text, score, k).Ok?
    ensures Valid(UpdateReview(s, id, text, score, k).value, k)
  {
  }

  /** Editing a comment keeps every invariant. */
  lemma UpdateCommentPreservesValid(s: Store, id: Id, text: string, k: Constants)
    requires Valid(s, k)
    requires UpdateComment(s, id, text).Ok?
    ensures Valid(UpdateComment(s, id, text).value, k)
  {
  }
}

=== FILE: config.dfy ===
/**
 The configuration constants of the catalog (the `reviews.constans` module,
 whose values are not part of this model), gathered into one value that every
 validator takes as a parameter.
 */
module Config {

  datatype Constants = Constants(
    /** Longest accepted username (and first/last name, confirmation code). */
    nameMaxLength: nat,
    /** Longest accepted email address. */
    emailMaxLength: nat,
    /** The username reserved for the `users/me` route. */
    reserveUsername: string,
    /** Longest category/genre/title name. */
    charFieldMaxLength: nat,
    /** Longest category/genre slug. */
    slugFieldMaxLength: nat,
    /** Inclusive bounds of a review score. */
    minScore: int,
    maxScore: int,
    /** Earliest accepted publication year of a title. */
    minYearPub: int,
    /** The code points above U+007F that the Unicode database classifies as
        alphanumeric, i.e. that Python's `\w` accepts in a str pattern. */
    unicodeWordChars: set<char>
  )
}

=== FILE: errors.dfy ===
/** The error vocabulary of the catalog: per-field validation errors,
    request-level rejections, storage constraint violations, missing objects. */
module Errors {

  /** Why a single input field was refused. */
  datatype FieldError =
    | Required
    | TooLong(limit: nat)
    | ReservedName(name: string)
    /** The username contains characters outside `[\w.@+-]`; `listed` is what
        the error message shows. */
    | ForbiddenCharacters(listed: seq<string>)
    | YearInFuture(currentYear: int)
    | BelowMinimum(minimum: int)
    | AboveMaximum(maximum: int)
    | EmptyList
    | UnknownSlug(slug: string)
    | InvalidChoice(value: string)
    | AlreadyTaken

  datatype FieldIssue = FieldIssue(field: string, error: FieldError)

  /** Rejections raised by a serializer's cross-field `validate`. */
  datatype Rejection =
    | EmailTaken(email: string)
    | UsernameTaken(username: string)
    | AlreadyReviewed

  /** The storage constraints whose violation is reported as a conflict. */
  datatype Constraint = UniqueUsername | UniqueEmail | UniqueSlug | UniqueTitleAuthor

  datatype Error =
    /** Field validation failed; every failing field is reported together. */
    | Invalid(issues: seq<FieldIssue>)
    | Rejected(reason: Rejection)
    | Conflict(constraint: Constraint)
    | PermissionDenied
    | NotFound
    | MethodNotAllowed
}

=== FILE: permissions.dfy ===
/**
 The permission predicates of `api/permissions.py`, each a function of the
 requester, the HTTP method and, at object level, the object's author. A
 handler runs the collection-level check before fetching an object and the
 object-level check before acting on it.
 */
module Permissions {
  import opened Wrappers
  import opened Users
  import Catalog

  datatype HttpMethod = GET | HEAD | OPTIONS | POST | PUT | PATCH | DELETE

  /** The read-only methods (`SAFE_METHODS`). */
  predicate IsSafe(m: HttpMethod) {
    m == GET || m == HEAD || m == OPTIONS
  }

  /** Who sent the request: nobody, or an account (compared by primary key). */
  datatype Requester = Anonymous | Member(id: Catalog.Id, user: User)

  /** `IsAdmin.has_permission`. */
  predicate AdminOnly(r: Requester) {
    r.Member? && r.user.IsAdmin()
  }

  /** `IsAdminOrReadOnly.has_permission`: the admin check, or a safe method. */
  predicate AdminOrReadOnly(r: Requester, m: HttpMethod) {
    AdminOnly(r) || IsSafe(m)
  }

  /** The framework's `IsAuthenticatedOrReadOnly.has_permission`, the
      collection-level check `IsAuthorOrAdminOrModerator` inherits. */
  predicate AuthenticatedOrReadOnly(r: Requester, m: HttpMethod) {
    IsSafe(m) || r.Member?
  }

  /** `IsAuthorOrAdminOrModerator.has_object_permission`. It is reached only
      once the collection-level check passed: for an anonymous requester and
      an unsafe method the source would read `is_moderator` off an anonymous
      user, which has none. */
  predicate AuthorOrStaff(r: Requester, m: HttpMethod, author: Catalog.Id)
    requires AuthenticatedOrReadOnly(r, m)
  {
    IsSafe(m) || r.id == author || r.user.IsModerator() || r.user.IsAdmin()
  }

  /** The two-phase check on a review or comment: the collection-level check,
      then, when an existing object is addressed, the object-level one. */
  predicate ReviewCommentAccess(r: Requester, m: HttpMethod, author: Option<Catalog.Id>) {
    AuthenticatedOrReadOnly(r, m) && (author.Some? ==> AuthorOrStaff(r, m, author.value))
  }

  /** `IsAdmin` allows exactly the authenticated admins. */
  lemma AdminOnlyIff(r: Requester)
    ensures AdminOnly(r) <==> r.Member? && (r.user.isSuperuser || r.user.isStaff || r.user.role.Value() == "admin")
  {
  }

  /** `IsAdminOrReadOnly` lets anyone read and only an authenticated admin write. */
  lemma AdminOrReadOnlyIff(r: Requester, m: HttpMethod)
    ensures IsSafe(m) ==> AdminOrReadOnly(r, m)
    ensures !IsSafe(m) ==> (AdminOrReadOnly(r, m) <==> r.Member? && r.user.IsAdmin())
    ensures AdminOrReadOnly(Anonymous, m) <==> m == GET || m == HEAD || m == OPTIONS
  {
  }

  /** An anonymous requester never gets past the collection check with an unsafe method. */
  lemma AnonymousCannotWrite(m: HttpMethod, author: Option<Catalog.Id>)
    requires !IsSafe(m)
    ensures !AuthenticatedOrReadOnly(Anonymous, m)
    ensures !ReviewCommentAccess(Anonymous, m, author)
  {
  }

  /** The object check lets every safe method through, and an unsafe one
      exactly for the author, a moderator or an admin. */
  lemma AuthorOrStaffIff(r: Requester, m: HttpMethod, author: Catalog.Id)
    requires AuthenticatedOrReadOnly(r, m)
    ensures IsSafe(m) ==> AuthorOrStaff(r, m, author)
    ensures !IsSafe(m) ==> (AuthorOrStaff(r, m, author) <==> r.id == author || CanModerate(r.user))
  {
  }

  /** A plain account that did not write the object may not change or delete it. */
  lemma PlainNonAuthorDenied(id: Catalog.Id, u: User, m: HttpMethod, author: Catalog.Id)
    requires !IsSafe(m) && id != author
    requires u.role == UserRole && !u.isSuperuser && !u.isStaff
    ensures !ReviewCommentAccess(Member(id, u), m, Some(author))
  {
  }

  /** The two phases together amount to one rule: reads are open; writes need
      an account, and on an existing object authorship or moderation rights. */
  lemma ReviewCommentAccessRule(r: Requester, m: HttpMethod, author: Option<Catalog.Id>)
    ensures ReviewCommentAccess(r, m, author) <==>
              || IsSafe(m)
              || (r.Member? && (author.None? || r.id == author.value || CanModerate(r.user)))
  {
  }

  /** The same account after a promotion. */
  predicate Promoted(before: Requester, after: Requester) {
    && before.Member? && after.Member?
    && after.id == before.id
    && Promotion(before.user, after.user)
  }

  /** Monotonicity: a promotion never turns an allowed request into a denied one. */
  lemma PromotionKeepsAccess(before: Requester, after: Requester, m: HttpMethod, author: Option<Catalog.Id>)
    requires Promoted(before, after)
    ensures AdminOnly(before) ==> AdminOnly(after)
    ensures AdminOrReadOnly(before, m) ==> AdminOrReadOnly(after, m)
    ensures AuthenticatedOrReadOnly(before, m) ==> AuthenticatedOrReadOnly(after, m)
    ensures ReviewCommentAccess(before, m, author) ==> ReviewCommentAccess(after, m, author)
  {
    ReviewCommentAccessRule(before, m, author);
    ReviewCommentAccessRule(after, m, author);
  }

  /** Making a plain account an admin or a moderator is such a promotion. */
  lemma RoleGrantKeepsAccess(id: Catalog.Id, u: User, role: Role, m: HttpMethod, author: Option<Catalog.Id>)
    requires role == AdministratorRole || (role == ModeratorRole && !u.IsAdmin())
    ensures ReviewCommentAccess(Member(id, u), m, author) ==> ReviewCommentAccess(Member(id, u.(role := role)), m, author)
    ensures AdminOrReadOnly(Member(id, u), m) ==> AdminOrReadOnly(Member(id, u.(role := role)), m)
    ensures AdminOnly(Member(id, u)) ==> AdminOnly(Member(id, u.(role := role)))
  {
    RoleChangePromotes(u);
    PromotionKeepsAccess(Member(id, u), Member(id, u.(role := role)), m, author);
  }
}

=== FILE: serializers.dfy ===
/**
 The decision logic of `api/serializers.py`: field validation delegated to
 the validators, the sign-up acceptance rule, the one-review-per-title check
 on POST, the title write rules (non-empty genre list, known slugs) and the
 user serializers with and without a writable role.
 */
module Serializers {
  import opened Wrappers
  import opened Errors
  import opened Config
  import opened Users
  import opened Catalog
  import Validators
  import Permissions

  // ------------------------------------------------------------------ sign-up

  datatype SignUpData = SignUpData(username: string, email: string)

  /** A failing field validator as a reported issue. */
  function IssuesOf(field: string, r: Result<string, FieldError>): (issues: seq<FieldIssue>)
    ensures issues == [] <==> r.Ok?
    ensures r.Err? ==> issues == [FieldIssue(field, r.error)]
  {
    match r
    case Ok(_) => []
    case Err(e) => [FieldIssue(field, e)]
  }

  /** The written username validator's verdict, with the fact that its
      character-class error never lists a character. */
  function UsernameIssues(u: string, k: Constants): (issues: seq<FieldIssue>)
    ensures issues == [] <==> Validators.ValidateUsername(u, k).Ok?
    ensures issues != [] ==> issues == [FieldIssue("username", Validators.ValidateUsernameAsWritten(u, k).error)]
    ensures forall i :: 0 <= i < |issues| && issues[i].error.ForbiddenCharacters? ==> issues[i].error.listed == []
  {
    var v := Validators.ValidateUsernameAsWritten(u, k);
    assert v.Err? && v.error.ForbiddenCharacters? ==> v.error.listed == [] by {
      if v.Err? && v.error.ForbiddenCharacters? {
        Validators.ForbiddenListAlwaysEmpty(u, k);
      }
    }
    IssuesOf("username", v)
  }

  /** `ValidationMixin`: username and email go through the validators of
      `reviews/validators.py` unchanged; every failing field is reported. */
  function SignUpFieldIssues(d: SignUpData, k: Constants): (issues: seq<FieldIssue>)
    ensures issues == [] <==> Validators.ValidateUsername(d.username, k).Ok? && Validators.ValidateEmail(d.email, k).Ok?
    ensures forall i :: 0 <= i < |issues| && issues[i].error.ForbiddenCharacters? ==> issues[i].error.listed == []
  {
    UsernameIssues(d.username, k) + IssuesOf("email", Validators.ValidateEmail(d.email, k))
  }

  /** The cross-field rule of `SignUpSerializer.validate` over the two
      existence facts, exactly as written. */
  function SignUpRule(emailExists: bool, usernameExists: bool, d: SignUpData): (r: Outcome<Rejection>)
    ensures r == Pass <==> emailExists == usernameExists
    ensures emailExists && !usernameExists ==> r == Fail(EmailTaken(d.email))
    ensures !emailExists && usernameExists ==> r == Fail(UsernameTaken(d.username))
  {
    if emailExists then
      if usernameExists then Pass else Fail(EmailTaken(d.email))
    else if usernameExists then Fail(UsernameTaken(d.username))
    else Pass
  }

  /** `SignUpSerializer` as written: field validation, then `validate`. */
  function SignUpValidateAsWritten(s: Store, d: SignUpData, k: Constants): (r: Result<SignUpData, Error>)
    ensures r.Ok? ==> r.value == d
    ensures r.Ok? <==> SignUpFieldIssues(d, k) == []
                       && EmailInUse(s.users, d.email) == UsernameInUse(s.users, d.username)
  {
    var issues := SignUpFieldIssues(d, k);
    if issues != [] then Err(Invalid(issues))
    else match SignUpRule(EmailInUse(s.users, d.email), UsernameInUse(s.users, d.username), d)
      case Pass => Ok(d)
      case Fail(why) => Err(Rejected(why))
  }

  /** As written, a request pairing one account's email with another
      account's username is accepted. */
  lemma SignUpAcceptsMixedPair(k: Constants)
    requires Validators.ValidateUsername("ann", k).Ok? && Validators.ValidateUsername("bob", k).Ok?
    requires Validators.ValidateEmail("bob@x", k).Ok?
    ensures var s := EmptyStore.(users := map[0 := NewUser("ann", "ann@x"), 1 := NewUser("bob", "bob@x")], nextId := 2);
            && Consistent(s)
            && SignUpValidateAsWritten(s, SignUpData("ann", "bob@x"), k) == Ok(SignUpData("ann", "bob@x"))
            && !(exists id :: id in s.users && s.users[id].username == "ann" && s.users[id].email == "bob@x")
  {
    var s := EmptyStore.(users := map[0 := NewUser("ann", "ann@x"), 1 := NewUser("bob", "bob@x")], nextId := 2);
    assert s.users[1].email == "bob@x";
    assert s.users[0].username == "ann";
  }

  /** Some single account owns both the username and the email. */
  predicate SameAccount(users: map<Id, User>, d: SignUpData) {
    exists id :: id in users && users[id].username == d.username && users[id].email == d.email
  }

  /** The corrected sign-up check: a repeated request for an existing account
      passes, a fresh pair passes, anything that collides with a different
      account is rejected. */
  function SignUpValidate(s: Store, d: SignUpData, k: Constants): (r: Result<SignUpData, Error>)
    ensures r.Ok? ==> r.value == d
    ensures r.Ok? <==> SignUpFieldIssues(d, k) == []
                       && (SameAccount(s.users, d)
                           || (!EmailInUse(s.users, d.email) && !UsernameInUse(s.users, d.username)))
  {
    var issues := SignUpFieldIssues(d, k);
    if issues != [] then Err(Invalid(issues))
    else if SameAccount(s.users, d) then Ok(d)
    else match SignUpRule(EmailInUse(s.users, d.email), UsernameInUse(s.users, d.username), d)
      case Pass =>
        if EmailInUse(s.users, d.email) then Err(Rejected(UsernameTaken(d.username))) else Ok(d)
      case Fail(why) => Err(Rejected(why))
  }

  /** The corrected check accepts only what the written one accepts. */
  lemma SignUpValidateRefines(s: Store, d: SignUpData, k: Constants)
    requires SignUpValidate(s, d, k).Ok?
    ensures SignUpValidateAsWritten(s, d, k).Ok?
  {
  }

  /** The reserved username is refused at sign-up, whatever the email. */
  lemma SignUpRefusesReservedName(s: Store, d: SignUpData, k: Constants)
    requires d.username == k.reserveUsername
    ensures SignUpValidateAsWritten(s, d, k).Err? && SignUpValidate(s, d, k).Err?
    ensures SignUpValidateAsWritten(s, d, k).error.Invalid?
    ensures |d.username| <= k.nameMaxLength ==>
              && SignUpValidateAsWritten(s, d, k).error.issues[0] == FieldIssue("username", ReservedName(d.username))
              && SignUpValidate(s, d, k) == SignUpValidateAsWritten(s, d, k)
    ensures |d.username| > k.nameMaxLength ==>
              SignUpValidateAsWritten(s, d, k).error.issues[0] == FieldIssue("username", TooLong(k.nameMaxLength))
  {
    Validators.ReservedUsernameRejected(d.username, k);
  }

  // ------------------------------------------------------------------ reviews

  /** The writable fields of a review request; absent on a partial update. */
  datatype ReviewData = ReviewData(text: Option<string>, score: Option<int>)

  /** Field-level checks: a create needs both fields, and a given score must be in range. */
  function ReviewFieldIssues(d: ReviewData, partial: bool, k: Constants): (issues: seq<FieldIssue>)
    ensures issues == [] <==>
              (partial || (d.text.Some? && d.score.Some?))
              && (d.score.Some? ==> ScoreInRange(d.score.value, k))
  {
    (if !partial && d.text.None? then [FieldIssue("text", Required)] else [])
    + (if !partial && d.score.None? then [FieldIssue("score", Required)] else [])
    + (if d.score.Some? then ScoreIssues(d.score.value, k) else [])
  }

  /** `ReviewSerializer.validate`: a POST by an author who already reviewed the
      title named in the URL is refused; any other request passes unchanged. */
  function ReviewValidate(s: Store, m: Permissions.HttpMethod, titleId: Id, author: Id, d: ReviewData): (r: Result<ReviewData, Error>)
    ensures r.Ok? ==> r.value == d
    ensures r.Err? <==> m == Permissions.POST && HasReviewed(s.reviews, titleId, author)
    ensures r.Err? ==> r.error == Rejected(AlreadyReviewed)
  {
    if m != Permissions.POST then Ok(d)
    else if HasReviewed(s.reviews, titleId, author) then Err(Rejected(AlreadyReviewed))
    else Ok(d)
  }

  /** The whole review serializer: field checks (partial for PATCH), then `validate`. */
  function ReviewSerializer(s: Store, m: Permissions.HttpMethod, titleId: Id, author: Id, d: ReviewData, k: Constants): (r: Result<ReviewData, Error>)
    ensures r.Ok? ==> r.value == d
    ensures r.Ok? <==> ReviewFieldIssues(d, m == Permissions.PATCH, k) == [] && ReviewValidate(s, m, titleId, author, d).Ok?
  {
    var issues := ReviewFieldIssues(d, m == Permissions.PATCH, k);
    if issues != [] then Err(Invalid(issues))
    else ReviewValidate(s, m, titleId, author, d)
  }

  /** A POST the serializer accepts is stored without hitting the
      `unique_title_author` constraint, and the store stays valid. */
  lemma AcceptedReviewStores(s: Store, titleId: Id, author: Id, d: ReviewData, k: Constants)
    requires Valid(s, k)
    requires titleId in s.titles && author in s.users
    requires ReviewSerializer(s, Permissions.POST, titleId, author, d, k).Ok?
    ensures var rv := Review(Authored(d.text.value, author), titleId, d.score.value);
            && AddReview(s, rv, k).Ok?
            && Valid(AddReview(s, rv, k).value.0, k)
            && HasReviewed(AddReview(s, rv, k).value.0.reviews, titleId, author)
  {
    var rv := Review(Authored(d.text.value, author), titleId, d.score.value);
    var r := AddReview(s, rv, k);
    var id := r.value.1;
    assert id in r.value.0.reviews && r.value.0.reviews[id] == rv;
  }

  /** A second POST by the same author on the same title is refused. */
  lemma SecondReviewRefused(s: Store, titleId: Id, author: Id, d: ReviewData, d2: ReviewData, k: Constants)
    requires Valid(s, k)
    requires titleId in s.titles && author in s.users
    requires ReviewSerializer(s, Permissions.POST, titleId, author, d, k).Ok?
    ensures var s' := AddReview(s, Review(Authored(d.text.value, author), titleId, d.score.value), k).value.0;
            ReviewSerializer(s', Permissions.POST, titleId, author, d2, k).Err?
  {
    AcceptedReviewStores(s, titleId, author, d, k);
  }

  // ------------------------------------------------------------------- titles

  /** The fields of `TitleCreateUpdateSerializer`; absent on a partial update. */
  datatype TitleData = TitleData(
    name: Option<string>,
    year: Option<int>,
    description: Option<string>,
    genre: Option<seq<Slug>>,
    category: Option<Slug>
  )

  /** Issues of the `genre` field: non-empty, every slug a known genre. */
  function GenreIssues(s: Store, genre: seq<Slug>): (issues: seq<FieldIssue>)
    ensures issues == [] <==> |genre| > 0 && forall i :: 0 <= i < |genre| ==> genre[i] in s.genres
  {
    if |genre| == 0 then [FieldIssue("genre", EmptyList)]
    else UnknownGenre(s, genre)
  }

  /** The many-slug field converts the list item by item and stops at the
      first slug that names no genre, reporting that one alone. */
  function UnknownGenre(s: Store, genre: seq<Slug>): (issues: seq<FieldIssue>)
    ensures issues == [] <==> forall i :: 0 <= i < |genre| ==> genre[i] in s.genres
    ensures issues != [] ==>
              exists j :: && 0 <= j < |genre| && genre[j] !in s.genres
                          && (forall i :: 0 <= i < j ==> genre[i] in s.genres)
                          && issues == [FieldIssue("genre", UnknownSlug(genre[j]))]
  {
    if |genre| == 0 then []
    else if genre[0] !in s.genres then [FieldIssue("genre", UnknownSlug(genre[0]))]
    else
      var rest := UnknownGenre(s, genre[1..]);
      assert forall i :: 1 <= i < |genre| ==> genre[i] == genre[1..][i - 1];
      if rest != [] then
        var j :| && 0 <= j < |genre[1..]| && genre[1..][j] !in s.genres
                 && (forall i :: 0 <= i < j ==> genre[1..][i] in s.genres)
                 && rest == [FieldIssue("genre", UnknownSlug(genre[1..][j]))];
        assert genre[j + 1] == genre[1..][j];
        rest
      else rest
  }

  /** All field checks of a title write; `partial` for PATCH, where absent
      fields are not checked. */
  function TitleFieldIssues(s: Store, d: TitleData, partial: bool, k: Constants, currentYear: int): (issues: seq<FieldIssue>)
    ensures issues == [] <==>
              && (partial || (d.name.Some? && d.year.Some? && d.genre.Some? && d.category.Some?))
              && (d.name.Some? ==> |d.name.value| <= k.charFieldMaxLength)
              && (d.year.Some? ==> k.minYearPub <= d.year.value <= currentYear)
              && (d.genre.Some? ==> |d.genre.value| > 0 && forall i :: 0 <= i < |d.genre.value| ==> d.genre.value[i] in s.genres)
              && (d.category.Some? ==> d.category.value in s.categories)
  {
    (match d.name
     case None => if partial then [] else [FieldIssue("name", Required)]
     case Some(n) => LengthIssues("name", n, k.charFieldMaxLength))
    + (match d.year
       case None => if partial then [] else [FieldIssue("year", Required)]
       case Some(y) => YearIssues(y, k, currentYear))
    + (match d.genre
       case None => if partial then [] else [FieldIssue("genre", Required)]
       case Some(g) => GenreIssues(s, g))
    + (match d.category
       case None => if partial then [] else [FieldIssue("category", Required)]
       case Some(c) => if c in s.categories then [] else [FieldIssue("category", UnknownSlug(c))])
  }

  /** The set of slugs a list names. */
  function SlugSet(xs: seq<Slug>): (r: set<Slug>)
    ensures forall x :: x in r <==> x in xs
  {
    set i | 0 <= i < |xs| :: xs[i]
  }

  /** The title a validated write produces: given fields replace the old ones. */
  function ApplyTitle(base: Title, d: TitleData): (t: Title)
    ensures d.name.Some? ==> t.name == d.name.value
    ensures d.name.None? ==> t.name == base.name
    ensures d.year.Some? ==> t.year == d.year.value
    ensures d.year.None? ==> t.year == base.year
    ensures d.description.Some? ==> t.description == d.description.value
    ensures d.description.None? ==> t.description == base.description
    ensures d.genre.Some? ==> t.genres == SlugSet(d.genre.value)
    ensures d.genre.None? ==> t.genres == base.genres
    ensures d.category.Some? ==> t.category == d.category
    ensures d.category.None? ==> t.category == base.category
  {
    Title(
      if d.name.Some? then d.name.value else base.name,
      if d.year.Some? then d.year.value else base.year,
      if d.description.Some? then d.description.value else base.description,
      if d.category.Some? then d.category else base.category,
      if d.genre.Some? then SlugSet(d.genre.value) else base.genres)
  }

  /** A title with no description yet, the model's default. */
  const BlankTitle: Title := Title("", 0, "", None, {})

  /** Create: the serializer accepts only complete data, and the title it
      builds has at least one genre, a category, and stores cleanly. */
  lemma CreatedTitleStores(s: Store, d: TitleData, k: Constants, currentYear: int)
    requires Valid(s, k)
    requires TitleFieldIssues(s, d, false, k, currentYear) == []
    ensures var t := ApplyTitle(BlankTitle, d);
            && t.genres != {} && t.category.Some?
            && AddTitle(s, t, k, currentYear).Ok?
            && Valid(AddTitle(s, t, k, currentYear).value.0, k)
  {
    var t := ApplyTitle(BlankTitle, d);
    assert d.genre.value[0] in t.genres;
    assert t.genres <= s.genres.Keys;
  }

  /** An empty genre list is refused on create and on update alike. */
  lemma EmptyGenreListRefused(s: Store, d: TitleData, partial: bool, k: Constants, currentYear: int)
    requires d.genre == Some([])
    ensures TitleFieldIssues(s, d, partial, k, currentYear) != []
  {
  }

  // -------------------------------------------------------------------- users

  /** The writable profile fields of a user serializer; absent on PATCH when
      not sent. `role` is the raw string of the request. */
  datatype UserData = UserData(
    username: Option<string>,
    email: Option<string>,
    firstName: Option<string>,
    lastName: Option<string>,
    bio: Option<string>,
    role: Option<string>
  )

  /** The field checks of `YamdbUserSerializer` on behalf of account `self`:
      on a full write (not `partial`) username and email are required;
      username and email go through the validators and are unused by anyone
      else, names keep within their length, and, when `roleWritable`, a role
      is among the choices. Without a writable role the role field is ignored. */
  function UserFieldIssues(s: Store, self: Id, d: UserData, partial: bool, roleWritable: bool, k: Constants): (issues: seq<FieldIssue>)
    ensures issues == [] <==>
              && (partial || (d.username.Some? && d.email.Some?))
              && (d.username.Some? ==> Validators.ValidateUsername(d.username.value, k).Ok?
                                       && forall o :: o in s.users && o != self ==> s.users[o].username != d.username.value)
              && (d.email.Some? ==> Validators.ValidateEmail(d.email.value, k).Ok?
                                    && forall o :: o in s.users && o != self ==> s.users[o].email != d.email.value)
              && (d.firstName.Some? ==> |d.firstName.value| <= k.nameMaxLength)
              && (d.lastName.Some? ==> |d.lastName.value| <= k.nameMaxLength)
              && (roleWritable && d.role.Some? ==> RoleFromValue(d.role.value).Some?)
  {
    (match d.username
     case None => if partial then [] else [FieldIssue("username", Required)]
     case Some(u) =>
       var v := UsernameIssues(u, k);
       if v != [] then v
       else if exists o :: o in s.users && o != self && s.users[o].username == u then [FieldIssue("username", AlreadyTaken)]
       else [])
    + (match d.email
       case None => if partial then [] else [FieldIssue("email", Required)]
       case Some(e) =>
         var v := IssuesOf("email", Validators.ValidateEmail(e, k));
         if v != [] then v
         else if exists o :: o in s.users && o != self && s.users[o].email == e then [FieldIssue("email", AlreadyTaken)]
         else [])
    + (match d.firstName case None => [] case Some(n) => LengthIssues("first_name", n, k.nameMaxLength))
    + (match d.lastName case None => [] case Some(n) => LengthIssues("last_name", n, k.nameMaxLength))
    + (if roleWritable && d.role.Some? && RoleFromValue(d.role.value).None?
       then [FieldIssue("role", InvalidChoice(d.role.value))] else [])
  }

  /** The account after a validated update: sent fields replace the old
      ones; the role only when it is writable. */
  function ApplyUserData(u: User, d: UserData, roleWritable: bool): (u': User)
    ensures d.username.Some? ==> u'.username == d.username.value
    ensures d.username.None? ==> u'.username == u.username
    ensures d.email.Some? ==> u'.email == d.email.value
    ensures d.email.None? ==> u'.email == u.email
    ensures d.firstName.Some? ==> u'.firstName == d.firstName.value
    ensures d.firstName.None? ==> u'.firstName == u.firstName
    ensures d.lastName.Some? ==> u'.lastName == d.lastName.value
    ensures d.lastName.None? ==> u'.lastName == u.lastName
    ensures d.bio.Some? ==> u'.bio == d.bio.value
    ensures d.bio.None? ==> u'.bio == u.bio
    ensures !roleWritable ==> u'.role == u.role
    ensures roleWritable && d.role.Some? && RoleFromValue(d.role.value).Some? ==> u'.role.Value() == d.role.value
    ensures u'.isSuperuser == u.isSuperuser && u'.isStaff == u.isStaff
    ensures u'.confirmationCode == u.confirmationCode
  {
    var role := if roleWritable && d.role.Some? then RoleFromValue(d.role.value) else None;
    User(
      if d.username.Some? then d.username.value else u.username,
      if d.email.Some? then d.email.value else u.email,
      if d.firstName.Some? then d.firstName.value else u.firstName,
      if d.lastName.Some? then d.lastName.value else u.lastName,
      if d.bio.Some? then d.bio.value else u.bio,
      u.confirmationCode,
      if role.Some? then role.value else u.role,
      u.isSuperuser,
      u.isStaff)
  }

  /** `YamdbUserSerializerWithoutRole` never changes the role, so neither
      `is_admin` nor `is_moderator` can change through it. */
  lemma SelfUpdateKeepsPrivileges(u: User, d: UserData)
    ensures ApplyUserData(u, d, false).role == u.role
    ensures ApplyUserData(u, d, false).IsAdmin() == u.IsAdmin()
    ensures ApplyUserData(u, d, false).IsModerator() == u.IsModerator()
  {
  }

  /** A validated update is stored without hitting a unique index. */
  lemma ValidatedUserStores(s: Store, self: Id, d: UserData, roleWritable: bool, k: Constants)
    requires Valid(s, k) && self in s.users
    requires UserFieldIssues(s, self, d, true, roleWritable, k) == []
    ensures UpdateUser(s, self, ApplyUserData(s.users[self], d, roleWritable)).Ok?
    ensures Valid(UpdateUser(s, self, ApplyUserData(s.users[self], d, roleWritable)).value, k)
  {
    var u' := ApplyUserData(s.users[self], d, roleWritable);
    forall o | o in s.users && o != self
      ensures s.users[o].username != u'.username && s.users[o].email != u'.email
    {
      UsernameIdentifies(s, o, self);
    }
  }

  /** A create (`POST users/`) that passes the full, non-partial checks is
      inserted without hitting a unique index, and the store stays valid. */
  lemma CreatedUserStores(s: Store, d: UserData, k: Constants)
    requires Valid(s, k)
    requires UserFieldIssues(s, s.nextId, d, false, true, k) == []
    ensures d.username.Some? && d.email.Some?
    ensures var u := ApplyUserData(NewUser("", ""), d, true);
            && AddUser(s, u).Ok?
            && Valid(AddUser(s, u).value.0, k)
            && u.username == d.username.value && u.email == d.email.value
  {
    var u := ApplyUserData(NewUser("", ""), d, true);
    assert !UsernameInUse(s.users, u.username) by {
      forall o | o in s.users ensures s.users[o].username != u.username {
        assert o != s.nextId;
      }
    }
    assert !EmailInUse(s.users, u.email) by {
      forall o | o in s.users ensures s.users[o].email != u.email {
        assert o != s.nextId;
      }
    }
  }
}

=== FILE: users.dfy ===
/**
 The user account of `reviews/models.py`: the three roles (`UserRoles`), the
 `YamdbUser` record and its derived `is_admin` / `is_moderator` flags, and the
 width of the column that stores the role.
 */
module Users {
  import opened Wrappers

  /** `UserRoles`: the stored value of each role is its `Value()`. */
  datatype Role = UserRole | ModeratorRole | AdministratorRole {
    function Value(): string {
      match this
      case UserRole => "user"
      case ModeratorRole => "moderator"
      case AdministratorRole => "admin"
    }

    function Label(): string {
      match this
      case UserRole => "Пользователь"
      case ModeratorRole => "Модератор"
      case AdministratorRole => "Администратор"
    }
  }

  const AllRoles: seq<Role> := [UserRole, ModeratorRole, AdministratorRole]

  /** `UserRoles.choices`: one (value, label) pair per role, in declaration order. */
  const Choices: seq<(string, string)> :=
    seq(|AllRoles|, i requires 0 <= i < |AllRoles| => (AllRoles[i].Value(), AllRoles[i].Label()))

  /** The role a stored string denotes, if it is one of the choices. */
  function RoleFromValue(s: string): (r: Option<Role>)
    ensures r.Some? ==> r.value.Value() == s
    ensures r.None? ==> forall role: Role :: role.Value() != s
  {
    if s == "user" then Some(UserRole)
    else if s == "moderator" then Some(ModeratorRole)
    else if s == "admin" then Some(AdministratorRole)
    else None
  }

  /** Every role survives the trip through its stored value, and the three
      stored values are distinct. */
  lemma RoleValueRoundTrip(r: Role, r': Role)
    ensures RoleFromValue(r.Value()) == Some(r)
    ensures r.Value() == r'.Value() ==> r == r'
  {
  }

  /** A new account has the `user` role. */
  const DefaultRole: Role := UserRole

  /** `YamdbUser`: the profile fields plus the framework's elevation flags. */
  datatype User = User(
    username: string,
    email: string,
    firstName: string,
    lastName: string,
    bio: string,
    confirmationCode: string,
    role: Role,
    isSuperuser: bool,
    isStaff: bool
  ) {
    predicate IsAdmin() {
      isSuperuser || isStaff || role == AdministratorRole
    }

    predicate IsModerator() {
      role == ModeratorRole || isSuperuser
    }
  }

  /** A freshly registered account: default role, no elevation, empty profile. */
  function NewUser(username: string, email: string): (u: User)
    ensures u.username == username && u.email == email
    ensures u.role.Value() == "user"
    ensures !u.IsAdmin() && !u.IsModerator()
  {
    User(username, email, "", "", "", "", DefaultRole, false, false)
  }

  /** `is_admin` and `is_moderator` in terms of the stored role string. */
  lemma RoleDerivation(u: User)
    ensures u.IsAdmin() <==> u.isSuperuser || u.isStaff || u.role.Value() == "admin"
    ensures u.IsModerator() <==> u.role.Value() == "moderator" || u.isSuperuser
  {
  }

  /** A superuser is both admin and moderator; staff status alone makes an
      admin but not a moderator, and so does the admin role alone. */
  lemma ElevationFacts(u: User)
    ensures u.isSuperuser ==> u.IsAdmin() && u.IsModerator()
    ensures u.isStaff && !u.isSuperuser && u.role != ModeratorRole ==> u.IsAdmin() && !u.IsModerator()
    ensures u.role == AdministratorRole && !u.isSuperuser ==> !u.IsModerator()
  {
  }

  /** May edit or delete other people's reviews and comments. */
  predicate CanModerate(u: User) {
    u.IsModerator() || u.IsAdmin()
  }

  /** `after` holds every privilege `before` held. */
  predicate Promotion(before: User, after: User) {
    (before.IsAdmin() ==> after.IsAdmin()) && (CanModerate(before) ==> CanModerate(after))
  }

  /** Giving anyone the admin role, or a non-admin the moderator role, is a
      promotion; note that the admin role drops `is_moderator` from a
      moderator, yet `CanModerate` survives. */
  lemma RoleChangePromotes(u: User)
    ensures Promotion(u, u.(role := AdministratorRole))
    ensures !u.IsAdmin() ==> Promotion(u, u.(role := ModeratorRole))
    ensures u.role == ModeratorRole && !u.isSuperuser ==> !u.(role := AdministratorRole).IsModerator()
  {
  }

  /** The largest element of a list of lengths. Python's `max` raises on an
      empty list; here that case gives 0, and it never arises, because the
      only list measured, one entry per role choice, is non-empty. */
  function MaxOf(xs: seq<nat>): (m: nat)
    ensures forall i :: 0 <= i < |xs| ==> xs[i] <= m
    ensures |xs| > 0 ==> m in xs
  {
    if |xs| == 0 then 0
    else
      var rest := MaxOf(xs[1..]);
      assert forall i :: 1 <= i < |xs| ==> xs[i] == xs[1..][i - 1];
      if xs[0] >= rest then xs[0] else rest
  }

  /** Python's `len` of a (value, label) pair: the number of items in the tuple. */
  function PairLen(p: (string, string)): nat {
    2
  }

  /** The role column's `max_length` as written:
      `max(len(role) for role in UserRoles.choices)` measures the pairs. */
  function RoleMaxLengthAsWritten(): nat {
    MaxOf(seq(|Choices|, i requires 0 <= i < |Choices| => PairLen(Choices[i])))
  }

  /** As written the column is two characters wide, and no role value fits. */
  lemma RoleValuesOverflowAsWritten(r: Role)
    ensures RoleMaxLengthAsWritten() == 2
    ensures |r.Value()| > RoleMaxLengthAsWritten()
  {
    var xs := seq(|Choices|, i requires 0 <= i < |Choices| => PairLen(Choices[i]));
    assert xs[0] == 2;
  }

  /** The intended width: the longest stored role value. */
  function RoleMaxLength(): nat {
    MaxOf(seq(|Choices|, i requires 0 <= i < |Choices| => |Choices[i].0|))
  }

  /** Every role value fits the intended column, and it is no wider than needed. */
  lemma RoleValuesFit(r: Role)
    ensures |r.Value()| <= RoleMaxLength()
    ensures exists r': Role :: |r'.Value()| == RoleMaxLength()
  {
    var xs := seq(|Choices|, i requires 0 <= i < |Choices| => |Choices[i].0|);
    assert xs[0] == |UserRole.Value()|;
    assert xs[1] == |ModeratorRole.Value()|;
    assert xs[2] == |AdministratorRole.Value()|;
    assert RoleMaxLength() == 9;
    assert |ModeratorRole.Value()| == RoleMaxLength();
  }
}

=== FILE: validators.dfy ===
/**
 The standalone field validators of `reviews/validators.py`: the username
 rules (length cap, reserved word, character class), the email length cap and
 the clock-dependent upper bound on a publication year.
 */
module Validators {
  import opened Wrappers
  import opened Errors
  import opened Config

  /** Python 3's `\w` in a str pattern: ASCII letters, digits and underscore,
      plus every non-ASCII code point the Unicode database calls alphanumeric. */
  predicate IsWordChar(c: char, k: Constants) {
    || ('a' <= c <= 'z')
    || ('A' <= c <= 'Z')
    || ('0' <= c <= '9')
    || c == '_'
    || (c as int > 0x7F && c in k.unicodeWordChars)
  }

  /** Membership in the character class `[\w.@+-]`. */
  predicate InUsernameClass(c: char, k: Constants) {
    IsWordChar(c, k) || c == '.' || c == '@' || c == '+' || c == '-'
  }

  /** The intended shape of a username: non-empty, every character in the class. */
  predicate WellFormedUsername(s: string, k: Constants) {
    |s| > 0 && forall i :: 0 <= i < |s| ==> InUsernameClass(s[i], k)
  }

  /** How far the greedy `[\w.@+-]+` runs from the start of `s`. */
  function ClassRun(s: string, k: Constants): (n: nat)
    ensures n <= |s|
    ensures forall i :: 0 <= i < n ==> InUsernameClass(s[i], k)
    ensures n < |s| ==> !InUsernameClass(s[n], k)
  {
    if |s| == 0 || !InUsernameClass(s[0], k) then 0
    else
      var rest := ClassRun(s[1..], k);
      assert forall i :: 1 <= i < 1 + rest ==> s[i] == s[1..][i - 1];
      1 + rest
  }

  /** Where a match of `^[\w.@+-]+\Z` attempted at `pos` ends, if it succeeds:
      `^` (no MULTILINE) only holds at position 0, the run must be non-empty
      and `\Z` only holds at the very end. */
  function MatchAt(s: string, pos: nat, k: Constants): (r: Option<nat>)
    requires pos <= |s|
    ensures r.Some? <==> pos == 0 && WellFormedUsername(s, k)
    ensures r.Some? ==> r.value == |s|
  {
    if pos != 0 then None
    else
      var n := ClassRun(s, k);
      if n >= 1 && n == |s| then Some(n) else None
  }

  /** `re.match(r'^[\w.@+-]+\Z', s)` succeeds. */
  predicate PatternMatches(s: string, k: Constants) {
    MatchAt(s, 0, k).Some?
  }

  /** `re.findall` of the username pattern, scanning from `pos`: every position
      is tried in turn, and after a match the scan resumes at its end. */
  function FindAllFrom(s: string, pos: nat, k: Constants): seq<string>
    requires pos <= |s|
    decreases |s| - pos
  {
    match MatchAt(s, pos, k)
    case Some(e) =>
      [s[pos..e]] + FindAllFrom(s, e, k)
    case None =>
      if pos < |s| then FindAllFrom(s, pos + 1, k) else []
  }

  /** Past the start, the anchored pattern never matches again. */
  lemma {:induction false} FindAllPastStart(s: string, pos: nat, k: Constants)
    requires 0 < pos <= |s|
    ensures FindAllFrom(s, pos, k) == []
    decreases |s| - pos
  {
    if pos < |s| {
      FindAllPastStart(s, pos + 1, k);
    }
  }

  /** `re.findall` of the anchored pattern lists the whole username when it
      is well formed and nothing at all otherwise. */
  lemma FindAllAnchored(s: string, k: Constants)
    ensures WellFormedUsername(s, k) ==> FindAllFrom(s, 0, k) == [s]
    ensures !WellFormedUsername(s, k) ==> FindAllFrom(s, 0, k) == []
  {
    if WellFormedUsername(s, k) {
      FindAllPastStart(s, |s|, k);
      assert s[0..|s|] == s;
    } else if 0 < |s| {
      FindAllPastStart(s, 1, k);
    }
  }

  /** The characters of `s` outside the class, each as a one-character string,
      in order of appearance and with repeats kept: a single character gives
      itself or nothing, and `ForbiddenConcat` shows the list of a
      concatenation is the concatenation of the lists. */
  function Forbidden(s: string, k: Constants): (r: seq<string>)
    ensures forall j :: 0 <= j < |r| ==> |r[j]| == 1 && !InUsernameClass(r[j][0], k)
    ensures forall i :: 0 <= i < |s| && !InUsernameClass(s[i], k) ==> [s[i]] in r
    ensures |r| <= |s|
    ensures |s| == 1 ==> r == (if InUsernameClass(s[0], k) then [] else [s])
  {
    if |s| == 0 then []
    else
      var rest := Forbidden(s[1..], k);
      assert forall i :: 1 <= i < |s| ==> s[i] == s[1..][i - 1];
      assert |s| == 1 ==> rest == [] && [s[0]] == s;
      (if InUsernameClass(s[0], k) then [] else [[s[0]]]) + rest
  }

  /** Splitting a username splits its list of offending characters: the
      list keeps every occurrence, in the order the characters appear. */
  lemma {:induction false} ForbiddenConcat(a: string, b: string, k: Constants)
    ensures Forbidden(a + b, k) == Forbidden(a, k) + Forbidden(b, k)
    decreases |a|
  {
    if |a| == 0 {
      assert a + b == b;
    } else {
      assert (a + b)[1..] == a[1..] + b;
      assert (a + b)[0] == a[0];
      ForbiddenConcat(a[1..], b, k);
    }
  }

  /** `validate_username` with the error message naming the offending
      characters. The checks run in order: length, reserved word, pattern. */
  function ValidateUsername(s: string, k: Constants): (r: Result<string, FieldError>)
    ensures r.Ok? <==> |s| <= k.nameMaxLength && s != k.reserveUsername && WellFormedUsername(s, k)
    ensures r.Ok? ==> r.value == s
    ensures |s| > k.nameMaxLength ==> r == Err(TooLong(k.nameMaxLength))
    ensures |s| <= k.nameMaxLength && s == k.reserveUsername ==> r == Err(ReservedName(s))
    ensures r.Err? && r.error.ForbiddenCharacters? ==>
              |s| <= k.nameMaxLength && s != k.reserveUsername && !WellFormedUsername(s, k)
    ensures r.Err? && r.error.ForbiddenCharacters? && |s| > 0 ==> |r.error.listed| > 0
  {
    if |s| > k.nameMaxLength then Err(TooLong(k.nameMaxLength))
    else if s == k.reserveUsername then Err(ReservedName(k.reserveUsername))
    else if !PatternMatches(s, k) then Err(ForbiddenCharacters(Forbidden(s, k)))
    else Ok(s)
  }

  /** `validate_username` exactly as written: the message lists
      `re.findall(pattern, username)`, the matches of the same anchored pattern. */
  function ValidateUsernameAsWritten(s: string, k: Constants): (r: Result<string, FieldError>)
    ensures r.Ok? <==> ValidateUsername(s, k).Ok?
    ensures r.Ok? ==> r.value == s
    ensures |s| > k.nameMaxLength ==> r == Err(TooLong(k.nameMaxLength))
    ensures |s| <= k.nameMaxLength && s == k.reserveUsername ==> r == Err(ReservedName(s))
    ensures r.Err? ==> (r.error.ForbiddenCharacters? <==> ValidateUsername(s, k).error.ForbiddenCharacters?)
    ensures r.Err? && !r.error.ForbiddenCharacters? ==> r == ValidateUsername(s, k)
  {
    if |s| > k.nameMaxLength then Err(TooLong(k.nameMaxLength))
    else if s == k.reserveUsername then Err(ReservedName(k.reserveUsername))
    else if !PatternMatches(s, k) then Err(ForbiddenCharacters(FindAllFrom(s, 0, k)))
    else Ok(s)
  }

  /** As written, the "forbidden characters" of the error message are always
      an empty list, whatever the username contains. */
  lemma ForbiddenListAlwaysEmpty(s: string, k: Constants)
    requires ValidateUsernameAsWritten(s, k).Err?
    requires ValidateUsernameAsWritten(s, k).error.ForbiddenCharacters?
    ensures ValidateUsernameAsWritten(s, k).error.listed == []
  {
    FindAllAnchored(s, k);
  }

  /** A concrete witness: "bad name" (the space is outside the class) is
      rejected with an empty list as written, and with " " named once corrected. */
  lemma ForbiddenListWitness(k: Constants)
    requires k.nameMaxLength >= 8 && k.reserveUsername == "me"
    ensures ValidateUsernameAsWritten("bad name", k) == Err(ForbiddenCharacters([]))
    ensures ValidateUsername("bad name", k) == Err(ForbiddenCharacters([" "]))
  {
    var s := "bad name";
    assert !InUsernameClass(s[3], k);
    FindAllAnchored(s, k);
    assert s[1..] == "ad name" && s[2..] == "d name" && s[3..] == " name" && s[4..] == "name";
    assert s[1..][1..] == s[2..] && s[2..][1..] == s[3..] && s[3..][1..] == s[4..];
    ForbiddenNone(s[4..], k);
    calc {
      Forbidden(s, k);
      Forbidden(s[1..], k);
      Forbidden(s[2..], k);
      Forbidden(s[3..], k);
      [" "] + Forbidden(s[4..], k);
      [" "];
    }
    assert !PatternMatches(s, k);
    assert s != k.reserveUsername;
  }

  /** A string wholly inside the class has nothing to list. */
  lemma {:induction false} ForbiddenNone(s: string, k: Constants)
    requires forall i :: 0 <= i < |s| ==> InUsernameClass(s[i], k)
    ensures Forbidden(s, k) == []
  {
    if |s| > 0 {
      ForbiddenNone(s[1..], k);
    }
  }

  /** The corrected message names exactly the offending characters. */
  lemma ForbiddenListsOffenders(s: string, k: Constants, c: char)
    requires ValidateUsername(s, k).Err? && ValidateUsername(s, k).error.ForbiddenCharacters?
    ensures [c] in ValidateUsername(s, k).error.listed <==> c in s && !InUsernameClass(c, k)
  {
    var listed := Forbidden(s, k);
    if [c] in listed {
      ForbiddenComeFromInput(s, k, c);
    }
  }

  /** Every listed character occurs in the input. */
  lemma {:induction false} ForbiddenComeFromInput(s: string, k: Constants, c: char)
    requires [c] in Forbidden(s, k)
    ensures c in s
  {
    if |s| > 0 {
      var head: seq<string> := if InUsernameClass(s[0], k) then [] else [[s[0]]];
      assert Forbidden(s, k) == head + Forbidden(s[1..], k);
      if [c] in head {
        assert c == s[0];
      } else {
        ForbiddenComeFromInput(s[1..], k, c);
        assert c in s[1..];
      }
    }
  }

  /** The reserved word is refused whatever else is true of it. */
  lemma ReservedUsernameRejected(s: string, k: Constants)
    requires s == k.reserveUsername
    ensures ValidateUsername(s, k).Err?
    ensures ValidateUsernameAsWritten(s, k).Err?
  {
  }

  /** A username that passes is returned unchanged, so validating it again
      gives the same answer. */
  lemma ValidateUsernameIdempotent(s: string, k: Constants)
    requires ValidateUsername(s, k).Ok?
    ensures ValidateUsername(ValidateUsername(s, k).value, k) == ValidateUsername(s, k)
  {
  }

  /** `validate_email`: only the length cap is checked here. */
  function ValidateEmail(e: string, k: Constants): (r: Result<string, FieldError>)
    ensures r.Ok? <==> |e| <= k.emailMaxLength
    ensures r.Ok? ==> r.value == e
    ensures r.Err? ==> r.error == TooLong(k.emailMaxLength)
  {
    if |e| > k.emailMaxLength then Err(TooLong(k.emailMaxLength)) else Ok(e)
  }

  lemma ValidateEmailIdempotent(e: string, k: Constants)
    requires ValidateEmail(e, k).Ok?
    ensures ValidateEmail(ValidateEmail(e, k).value, k) == ValidateEmail(e, k)
  {
  }

  /** `validate_max_year`: `currentYear` is the year of the clock reading taken
      at validation time. It returns nothing on success. */
  function ValidateMaxYear(value: int, currentYear: int): (r: Outcome<FieldError>)
    ensures r.Fail? <==> value > currentYear
    ensures r.Fail? ==> r.error == YearInFuture(currentYear)
  {
    if value > currentYear then Fail(YearInFuture(currentYear)) else Pass
  }

  /** A year accepted now stays accepted as the clock advances, and so does
      every earlier year; the current year itself is accepted. */
  lemma ValidateMaxYearMonotone(value: int, earlier: int, now: int, later: int)
    requires ValidateMaxYear(value, now) == Pass
    requires earlier <= value && now <= later
    ensures ValidateMaxYear(earlier, now) == Pass
    ensures ValidateMaxYear(value, later) == Pass
    ensures ValidateMaxYear(now, now) == Pass
  {
  }
}

=== FILE: views.dfy ===
/**
 The few rules of `api/views.py` that touch the model: the account lookup or
 creation behind sign-up, the self-profile update, the refusal of PUT on
 accounts, and the check that a comment's review belongs to the title in the
 URL. Mail, confirmation codes and access tokens are not part of this model.
 */
module Views {
  import opened Wrappers
  import opened Errors
  import opened Config
  import opened Users
  import opened Catalog
  import opened Serializers
  import Permissions

  /** `UsersViewSet.update`: a full replace is refused, a partial one goes on. */
  function UserUpdateMethod(m: Permissions.HttpMethod): (r: Outcome<Error>)
    ensures r.Fail? <==> m == Permissions.PUT
    ensures r.Fail? ==> r.error == MethodNotAllowed
  {
    if m == Permissions.PUT then Fail(MethodNotAllowed) else Pass
  }

  /** `CommentViewSet.get_review`: the review must exist and belong to the
      title named in the URL. */
  function CommentReview(s: Store, titleId: Id, reviewId: Id): (r: Result<Id, Error>)
    ensures r.Ok? <==> reviewId in s.reviews && s.reviews[reviewId].title == titleId
    ensures r.Ok? ==> r.value == reviewId
    ensures r.Err? ==> r.error == NotFound
  {
    if reviewId in s.reviews && s.reviews[reviewId].title == titleId then Ok(reviewId) else Err(NotFound)
  }

  /** `User.objects.get_or_create(username=…, email=…)`: an account with both
      is reused; otherwise one is inserted, which the unique indexes refuse
      when either value belongs to someone. The flag says whether it was created. */
  function GetOrCreateUser(s: Store, d: SignUpData): (r: Result<(Store, bool), Error>)
    ensures r.Ok? ==> SameAccount(r.value.0.users, d)
    ensures r.Ok? && !r.value.1 ==> r.value.0 == s
    ensures r.Ok? && r.value.1 ==>
              && r.value.0.users == s.users[s.nextId := NewUser(d.username, d.email)]
              && r.value.0.titles == s.titles && r.value.0.reviews == s.reviews
              && r.value.0.comments == s.comments
              && r.value.0.categories == s.categories && r.value.0.genres == s.genres
    ensures r.Err? <==> !SameAccount(s.users, d) && (UsernameInUse(s.users, d.username) || EmailInUse(s.users, d.email))
    ensures r.Err? ==> r.error.Conflict?
    ensures r.Ok? && Consistent(s) ==> Consistent(r.value.0)
  {
    if SameAccount(s.users, d) then Ok((s, false))
    else
      match AddUser(s, NewUser(d.username, d.email))
      case Ok((s', id)) =>
        assert s'.users[id].username == d.username && s'.users[id].email == d.email;
        Ok((s', true))
      case Err(e) => Err(e)
  }

  /** The sign-up view, with the corrected check: whatever the check accepts
      is looked up or created without a constraint violation. */
  function SignUp(s: Store, d: SignUpData, k: Constants): (r: Result<Store, Error>)
    ensures r.Ok? <==> SignUpValidate(s, d, k).Ok?
    ensures r.Ok? ==> SameAccount(r.value.users, d)
    ensures r.Ok? && Valid(s, k) ==> Valid(r.value, k)
    ensures r.Err? ==> !r.error.Conflict?
    ensures r.Ok? ==> s.users.Keys <= r.value.users.Keys && r.value.titles == s.titles
                      && r.value.reviews == s.reviews && r.value.comments == s.comments
                      && r.value.categories == s.categories && r.value.genres == s.genres
    ensures r.Ok? && IdsIssued(s) ==>
              forall id :: id in r.value.users ==>
                if id in s.users then r.value.users[id] == s.users[id]
                else r.value.users[id] == NewUser(d.username, d.email)
  {
    var _ :- SignUpValidate(s, d, k);
    match GetOrCreateUser(s, d)
    case Ok((s', _)) => Ok(s')
    case Err(e) => Err(e)
  }

  /** The sign-up view as written: validation, then `get_or_create`. */
  function SignUpAsWritten(s: Store, d: SignUpData, k: Constants): (r: Result<Store, Error>)
    ensures r.Ok? ==> SignUpValidateAsWritten(s, d, k).Ok? && SameAccount(r.value.users, d)
    ensures r.Ok? <==> SignUpValidate(s, d, k).Ok?
    ensures r.Err? && SignUpValidateAsWritten(s, d, k).Ok? ==> r.error.Conflict?
    ensures r.Ok? && Consistent(s) ==> Consistent(r.value)
  {
    var _ :- SignUpValidateAsWritten(s, d, k);
    var (s', _) :- GetOrCreateUser(s, d);
    Ok(s')
  }

  /** As written, one account's username with another's email passes
      validation and then violates a unique index instead of being refused. */
  lemma SignUpAsWrittenConflicts(k: Constants)
    requires Validators.ValidateUsername("ann", k).Ok? && Validators.ValidateUsername("bob", k).Ok?
    requires Validators.ValidateEmail("bob@x", k).Ok?
    ensures var s := EmptyStore.(users := map[0 := NewUser("ann", "ann@x"), 1 := NewUser("bob", "bob@x")], nextId := 2);
            && SignUpValidateAsWritten(s, SignUpData("ann", "bob@x"), k).Ok?
            && SignUpAsWritten(s, SignUpData("ann", "bob@x"), k).Err?
            && SignUpAsWritten(s, SignUpData("ann", "bob@x"), k).error.Conflict?
            && SignUp(s, SignUpData("ann", "bob@x"), k).Err?
            && SignUp(s, SignUpData("ann", "bob@x"), k).error.Rejected?
  {
    SignUpAcceptsMixedPair(k);
    var s := EmptyStore.(users := map[0 := NewUser("ann", "ann@x"), 1 := NewUser("bob", "bob@x")], nextId := 2);
    assert s.users[0].username == "ann";
  }

  /** Signing up again with the same pair is idempotent: no second account. */
  lemma SignUpRepeatable(s: Store, d: SignUpData, k: Constants)
    requires SignUp(s, d, k).Ok?
    ensures SignUp(SignUp(s, d, k).value, d, k) == Ok(SignUp(s, d, k).value)
  {
  }

  /** `PATCH users/me`: an authenticated requester updates their own profile
      through the serializer whose role is read-only. */
  function PatchMe(s: Store, r: Permissions.Requester, d: UserData, k: Constants): (res: Result<Store, Error>)
    ensures r.Anonymous? ==> res == Err(PermissionDenied)
    ensures res.Ok? ==> r.Member? && r.id in s.users && r.id in res.value.users
                        && res.value.users[r.id].role == s.users[r.id].role
                        && res.value.users[r.id].IsAdmin() == s.users[r.id].IsAdmin()
                        && res.value.users[r.id].IsModerator() == s.users[r.id].IsModerator()
    ensures res.Ok? ==> forall o :: o in s.users && o != r.id ==> o in res.value.users && res.value.users[o] == s.users[o]
    ensures res.Ok? && Valid(s, k) ==> Valid(res.value, k)
    ensures res.Ok? ==> res.value.users[r.id] == ApplyUserData(s.users[r.id], d, false)
    ensures res.Ok? ==> res.value.users.Keys == s.users.Keys && res.value.titles == s.titles
                        && res.value.reviews == s.reviews && res.value.comments == s.comments
                        && res.value.categories == s.categories && res.value.genres == s.genres
  {
    if r.Anonymous? then Err(PermissionDenied)
    else if r.id !in s.users then Err(NotFound)
    else
      var issues := UserFieldIssues(s, r.id, d, true, false, k);
      if issues != [] then Err(Invalid(issues))
      else UpdateUser(s, r.id, ApplyUserData(s.users[r.id], d, false))
  }

  /** With validation passed, the self-update always lands. */
  lemma PatchMeSucceedsWhenValid(s: Store, id: Id, u: User, d: UserData, k: Constants)
    requires Valid(s, k) && id in s.users
    requires UserFieldIssues(s, id, d, true, false, k) == []
    ensures PatchMe(s, Permissions.Member(id, u), d, k).Ok?
  {
    ValidatedUserStores(s, id, d, false, k);
  }
}

=== FILE: wrappers.dfy ===
/** Failure-compatible wrappers shared by every module of the model. */
module Wrappers {

  /** An optional value: a nullable column, an absent request field. */
  datatype Option<+T> = None | Some(value: T)

  /** A value or the error that stopped its computation (a raised exception in the source). */
  datatype Result<+T, +E> = Ok(value: T) | Err(error: E) {
    predicate IsFailure() {
      Err?
    }

    function PropagateFailure<U>(): Result<U, E>
      requires Err?
    {
      Err(error)
    }

    function Extract(): T
      requires Ok?
    {
      value
    }
  }

  /** A check that either passes or fails with an error, returning nothing on success. */
  datatype Outcome<+E> = Pass | Fail(error: E)
}
